=== FILE: README.md ===
# Fitness-tracker backend: vote ledger, role gate, slots and reports

A Dafny model of the decision logic inside the fitness-tracker service's HTTP
handlers (`index.js`). The document store is treated as a value passed in and
handed back, so each handler becomes a pure function from the request and the
relevant collection to a status, a message and the collection afterwards. The
modelled pieces:

- **Authentication and role gate** (`auth.dfy`): `verifyToken` answers 401 for a
  missing header or one without the `Bearer ` prefix, takes the token with
  `split(" ")[1]` and hands it to the token verifier (a parameter). The role
  gates `verifyAdmin`, `verifyTrainer` and `verifyMember` compare the role string
  exactly (`"admin"`, `"Trainer"`, `"member"`) and answer 403 otherwise.
- **Email check** (`email.dfy`): `isValidEmail`, the regular expression
  `^[^\s@]+@[^\s@]+\.[^\s@]+$` written out over strings. It is proved equal to a
  plain description: no white space, exactly one `@` with something before it,
  and a `.` after it that is neither the first nor the last character of the domain.
- **Vote ledger** (`votes.dfy`): a post keeps `{email, vote}` records and an
  `upvotes` counter that is really a net score. Casting a vote checks the post
  id, the email and the vote, answers 404 for a missing post, then pulls the
  voter's records and takes the first one's value off the counter, and pushes
  the new record and adds its value. The ledger invariant is one record per
  voter, with the counter equal to the sum of the records. Posts start out
  satisfying it and every vote keeps it.
- **Trainer slots** (`slots.dfy`): creating a slot appends one unbooked slot
  with a fresh identifier. Deleting pulls every slot with the given identifier.
- **Balance report** (`balance.dfy`): the sum of payments, the first ten
  bookings as transactions, and the number of distinct booking emails.
- **Forum paging** (`paging.dfy`): `parseInt(page) || 1`, skip `(page-1)*6`,
  `Math.ceil(totalPosts/6)` pages, and the `$lookup`/`$unwind` join of each post
  with its author's user record. The join as written can list a post more than
  once (see "## Findings"); with one row per post, reading the pages one after
  another gives back every post.
- **Routes** (`routes.dfy`): the middleware chains in front of these handlers.
- Support: `js.dfy` holds JavaScript truthiness, `\s`, `startsWith` and `parseInt`.
  `http.dfy` holds the status codes. `seqs.dfy` holds the order-preserving filter
  that models a `$pull`.

Three behaviours of the code worth knowing:
- A role gate that finds no user answers 403, not 401. A 401 only ever comes from `verifyToken`.
- The voter records form an ordered list. Nothing but the handler's own pull-then-push keeps them unique.
- The vote records the email taken from the request body, not the token's email.
  Any authenticated caller can therefore vote under any valid address (`Routes.VoteUnderAnyEmail`).

## Model

| member | source | states |
|---|---|---|
| Auth.RoleGate | index.js:28-55 | a gate allows a present user iff their role string reads as exactly the required role, and otherwise answers 403 |
| Auth.ParseRole | index.js:28-55 | the three role strings are read exactly, and every other string is no role |
| Auth.GateIsRoleEquality | index.js:28-55 | a gate passes iff the user's role string reads as exactly the required role |
| Auth.NoHierarchy | index.js:28-55 | no user passes two different role gates, so admin does not pass the Trainer or member gate |
| Auth.GatesAreCaseSensitive | index.js:28-55 | "trainer", "Admin", a missing role, and admin at the Trainer gate are all refused |
| Auth.BearerToken | index.js:105 | the token has no space, directly follows the bearer prefix, and is followed by the end of the header or a space |
| Auth.BearerRoundTrip | index.js:105 | a header "Bearer <token>", with or without a space-led trailer, yields exactly <token> |
| Auth.VerifyToken | index.js:97-114 | a missing header, a header without the prefix, or a failed verification gives 401; a prefixed header whose token verifies is allowed with exactly the decoded claims |
| Auth.Authorize | index.js:97-114 | the chain keeps every refusal of `verifyToken`; a verified user passes an ungated route, passes a gated one iff their role string is the required name, and is answered 403 otherwise |
| Auth.MissingBearerIsUnauthorized | index.js:100-103 | without a bearer header every route answers 401, whatever role it requires |
| Auth.VerifiedTokenMeetsGate | index.js:97-114 | with a token that verifies, the outcome is the role gate's alone |
| Email.IsValidEmail | index.js:776-779 | the regular expression; a match has at least five characters and starts and ends with a `[^\s@]` character |
| Email.EmailPattern | index.js:776-779 | the regular expression accepts exactly the strings with no white space, one '@' after a non-empty local part, and an inner '.' in the domain |
| Email.AcceptedEmail | index.js:776-779 | a sample address that matches |
| Email.RefusedEmailsShape | index.js:776-779 | addresses with no dot after '@', an empty local part or an empty label before the dot are refused |
| Email.RefusedEmailsCharacters | index.js:776-779 | addresses with white space or two '@' are refused |
| Votes.CanonicalId | index.js:733-735 | the store key keeps the id's hexadecimal digit values and is spelt in lower case |
| Votes.SameObjectId | index.js:733-735 | two spellings of an id name the same post iff their digits have the same values |
| Votes.IsValidObjectId | index.js:716 | an id is valid iff it is 24 characters, each a decimal digit or a letter a-f in either case |
| Votes.FindVoter | index.js:744 | the result is the first record with that email, or none when no record has it |
| Votes.VoteValue | index.js:726-731 | a vote is accepted iff it is the number 1 or -1 |
| Votes.Pull | index.js:746-753 | the `$pull` leaves no record of the voter and takes the first record's value off the counter; on a list with one record per voter it keeps that and keeps counter minus score |
| Votes.Push | index.js:756-763 | the `$push` appends exactly the new record and adds its value, so counter minus score is kept; a voter without a record stays unique |
| Votes.ApplyVote | index.js:744-763 | afterwards the voter has exactly one record, the last, holding the new vote; every other voter's records are kept; the counter becomes upvotes - previousVote + vote |
| Votes.CastVote | index.js:711-766 | 400 iff the post id, email or vote is malformed; 404 iff all are valid and the post is absent; a refused request changes nothing; success changes only that post |
| Votes.CreatePost | index.js:684-705 | a post is created iff title and content are truthy, and it starts with no voters and score 0, so the ledger invariant holds |
| Votes.ScoreWithout | index.js:746-751 | on a list with one record per voter, the pull takes exactly the voter's earlier vote off the summed score |
| Votes.VotePreservesConsistency | index.js:744-763 | a vote keeps one record per voter and the counter equal to the sum of the records |
| Votes.VoteKeepsOrder | index.js:750-760 | the remaining records keep their relative order, and the new record is appended at the end |
| Votes.RevoteIsIdempotent | index.js:744-763 | casting the same vote twice leaves the post exactly as casting it once |
| Votes.SameDirectionKeepsScore | index.js:746-763 | re-voting in the same direction leaves the counter unchanged |
| Votes.SwitchLowersScoreByTwo | index.js:746-763 | switching +1 to -1 lowers the counter by 2 |
| Votes.OpposingVotesCancel | index.js:698-763 | on a new post, +1 by one voter and -1 by another give score 0 and two records |
| Votes.ZeroVoteRefused | index.js:726-731 | a vote of 0 is answered 400 and changes nothing |
| Votes.CastVotePreservesConsistency | index.js:711-766 | a vote request keeps the ledger invariant of every post in the collection |
| Seqs.Filter | index.js:750 | a `$pull` keeps exactly the elements that do not match, all taken from the input |
| Slots.CreateSlot | index.js:460-493 | 400 unless days, name and time are truthy; 404 iff the trainer is absent; otherwise exactly one unbooked slot with the fresh id is appended and nothing else changes |
| Slots.DeleteSlot | index.js:530-573 | 400 for an empty id; 404 iff the trainer has no slot with that id; otherwise exactly the slots with that id are removed, the list shrinks, and no other trainer changes |
| Slots.DeleteKeepsOrder | index.js:555-558 | the remaining slots keep their original order |
| Slots.CreateThenDeleteRestores | index.js:476-558 | deleting a just-created slot under a fresh id gives back the collection as it was |
| Slots.DeleteTwiceIsNotFound | index.js:544-552 | a second deletion of the same id is 404 and changes nothing |
| Slots.CreateTwiceAddsTwo | index.js:476-487 | repeated creation is not deduplicated |
| Balance.BalanceReport | index.js:878-919 | the total is the sum of payment amounts, the transactions are the first min(10, n) bookings in order, and paid members is the number of distinct booking emails (0 with no bookings) |
| Balance.Total | index.js:885-888 | with non-negative amounts the total is at least every single amount |
| Balance.PaidMembersAreBookingEmails | index.js:906 | the groups are exactly the emails some booking has |
| Balance.CountStage | index.js:905-912 | `$count` gives no document iff there are no groups, else the number of groups; the handler reads the missing document as 0 |
| Balance.TotalConcat | index.js:885-888 | the total adds across any split of the payments |
| Balance.PaidMembersBounds | index.js:904-912 | there are at most as many paid members as bookings, and at least one when any booking exists |
| Balance.ReportExample | index.js:885-912 | payments 50 and 30 total 80; bookings by x, x and y give 2 paid members |
| Paging.PageNumber | index.js:635 | NaN and 0 give page 1; every other parsed value, negative ones included, is the page |
| Paging.TotalPages | index.js:674 | the page count is the ceiling of total/6 |
| Paging.Skip | index.js:637 | the skip is (page-1)*6: a multiple of six whose quotient by six is page-1, non-negative iff the page is at least 1 |
| Paging.Matches | index.js:644-649 | `$lookup` pairs a post with exactly the users whose `username` equals its `author`, a missing field comparing as null |
| Paging.Unwind | index.js:651-656 | `$unwind` keeping empty arrays gives one row per matched user, or one row without a user |
| Paging.LookupUnwind | index.js:641-656 | the join as written gives at least as many rows as posts, and every row is of a listed post |
| Paging.EveryPostHasARow | index.js:641-656 | the written join drops no post: every post has at least one row |
| Paging.OneRowPerPostIff | index.js:639-656 | the written join gives as many rows as `countDocuments` counts posts iff no post matches two users |
| Paging.AuthorlessPostListedTwice | index.js:641-701 | a post stored without `author` and two users without `username` put the post twice on page 1 |
| Paging.LookupFirst | index.js:641-656 | the corrected join gives exactly one row per post, in order, with a user iff one matches |
| Paging.LookupFirstAgrees | index.js:641-656 | when no post matches two users, the corrected join equals the written one |
| Paging.CorrectedPagesShowEachPost | index.js:635-676 | with the corrected join, pages 1 to totalPages list every post exactly once, in order |
| Paging.ListPage | index.js:635-676 | a page below 1 is a 500; otherwise the rows from (page-1)*6 on, six or up to the end; the page count comes from the post count; when the rows are one per post, a full page before the last and a non-empty page iff the page is within the page count |
| Paging.PagesCoverListing | index.js:635-674 | when there is one row per post, pages 1 to totalPages read in turn give back every row once and in order |
| Paging.PageNumberReadsDecimal | index.js:635 | a decimal page number is the page shown |
| Paging.PageNumberFallsBackToOne | index.js:635 | "0", text without digits and a missing parameter give page 1 |
| Js.ParseIntDecimal | index.js:635 | parseInt reads back a decimal natural number followed by any non-digit text (after a lone 0, any but 'x'/'X') |
| Js.ParseIntNegatedDecimal | index.js:635 | parseInt reads back a minus sign and a decimal number, under the same condition on what follows |
| Js.NoDigitsIsNaN | index.js:635 | text whose first character is not white space, a sign or a decimal digit parses to NaN |
| Js.ParseIntHex | index.js:635 | parseInt reads `0x` and hexadecimal digits in base 16, whatever non-hexadecimal text follows |
| Js.ParseIntDigits | index.js:635 | parseInt reads decimal digits with leading zeros allowed, whatever non-digit text follows (after a lone 0, any but 'x'/'X') |
| Js.ParseIntHexExample | index.js:635 | `?page=0x1A` reads as 26 |
| Js.ParseIntLeadingZerosExample | index.js:635 | `?page=007` reads as 7 |
| Js.Truthy | index.js:689 | `!v` holds exactly for undefined, null, false, 0 and the empty string |
| Js.ParseUnsigned | index.js:635 | the reading is never negative, and is NaN iff the text starts with no decimal digit, or with `0x` not followed by a hexadecimal digit |
| Routes.VoteRoute | index.js:711 | without a verified token the vote is 401 and changes nothing; otherwise the vote handler decides |
| Routes.CreateSlotRoute | index.js:460 | a refused token or role is 401/403 and changes nothing; otherwise the slot is created for the token's email |
| Routes.DeleteSlotRoute | index.js:530-534 | a refused token or role is 401/403 and changes nothing; otherwise the deletion acts on the token's trainer |
| Routes.ListPostsRoute | index.js:633-676 | without a verified token the listing is 401 and empty; otherwise the parsed page of the posts joined with every matching user, as written, with the page count from the number of posts |
| Routes.ListPostsOneRowPerPost | index.js:633-676 | when no post matches two users, the route pages exactly the one-row-per-post join |
| Routes.BalanceRoute | index.js:878-919 | the report is produced iff the admin chain allows, with the summed total, the first min(10, n) bookings as transactions, the subscriber count and the distinct paid-member count |
| Routes.AdminCannotCreateSlots | index.js:460 | an admin token is answered 403 on the trainer slot route |
| Routes.VoteUnderAnyEmail | index.js:711-766 | an authenticated caller can record a vote under another valid email |
| Routes.VoteRecordsBodyEmail | index.js:714-763 | a valid +1 vote on an existing post is accepted and leaves the body's email with exactly that vote as its record |

## Left out

- Token issuing and verification (`/jwt`, `jwt.sign`, `jwt.verify`): the cryptography and expiry live in a library outside this model. The verifier is a function parameter from token to decoded claims.
- The document store: `findOne`, `updateOne` and the aggregation stages run inside the store. Collections are maps or sequences; the `$lookup` and `$unwind` stages of the post listing are modelled on sequences.
- The `$project` stage (field selection and the zero-filling of missing vote counters) is not modelled. The `$sort` by `createdAt` is modelled by taking the posts already in that order; the order of ties is not modelled.
- Store and provider failures that end in the handlers' 500 catch branches. The one 500 that is modelled is the negative `$skip` of a page below 1.
- `Paging.ListPage`: the skip is an unbounded integer. The store refuses a `$skip` beyond the 64-bit signed limit (2^63 - 1), which the handler would answer with 500; such pages (from about `?page=1537228672809129303` on) are answered 200 with no rows here. The double rounding of `(page - 1) * 6` near that bound is not modelled either.
- The payment-intent call and `Math.round(amount * 100)`: a foreign call plus floating point. Payment amounts enter the report as integers.
- uuid generation: the fresh slot id is a parameter. Its freshness is a precondition of the lemmas that need it.
- The two vote updates are not atomic against concurrent requests. Concurrency is out of scope, and the pull and push are one sequential step.
- The `vote !== 0` test before the push (index.js:756): it always holds after validation, so the push is unconditional.
- The `modifiedCount === 0` branch of slot deletion (index.js:562-566): the trainer was just found with a matching slot, so the pull always removes something (`Slots.DeleteSlot` ensures the list shrinks).
- `Votes.ValidVoterEmail`: `isValidEmail` applies the regular expression to `String(email)`. Only string emails are modelled. A one-element array holding a valid address would also pass the source's check.
- `Votes.IsValidObjectId`: the bson library is outside this model. Its current rule, 24 hexadecimal digits, is used. Older bson versions also accepted any 12-character string.
- `Js.ParseInt`: numbers beyond double precision are read exactly. A repeated query parameter, which arrives as an array, is not modelled.
- `Balance.BalanceReport`: amounts are integers. JavaScript `+` on a non-numeric amount, which gives string concatenation or NaN, is not modelled. Booking emails are strings, and a `$group` on missing or non-string emails is not modelled.
- Trainers are keyed by email. Two trainer documents with one email are not modelled.
- A post whose `voters` field is missing makes `find` throw, which gives a 500. Every post made by `POST /forum/posts` has the field, so that case is not modelled.
- The `downvotes` counter is set to 0 at creation and never written again. It is carried unchanged.
- `Votes.CreatePost` models the validation and the initial state only. The store insert and the `userId` taken from the token are not modelled.
- Express routing, CORS, logging, `logActivity`, the trainer slot listing (`GET /slots/trainer/:email`), and the user, class, application, subscription and booking handlers are out of scope. Each is one store call with no decision logic.

## Findings

| source | as written | input that shows it | evidently intended | confidence | as-written member | corrected member |
|---|---|---|---|---|---|---|
| index.js:641-656 | `$lookup` on `author`/`username`, then `$unwind`, gives one row per matching user; `totalPages` counts posts with `countDocuments` (index.js:639) | a post created by `POST /forum/posts` (no `author`, index.js:693-701) and two users without `username`: the post is listed twice on page 1, and with enough such posts pages 1 to totalPages no longer show every post | one row per post, carrying its author's name when there is one | medium, not executed: depends on at least two user records without `username`: no handler sets it, but POST /users stores whatever fields the client sends (index.js:161-165) | Paging.LookupUnwind, Paging.AuthorlessPostListedTwice | Paging.LookupFirst, Paging.CorrectedPagesShowEachPost |

=== FILE: auth.dfy ===
/**
 The authentication and role gate in front of the protected routes: the bearer
 header check of `verifyToken`, followed (on some routes) by one of the exact-match
 role gates `verifyAdmin`, `verifyTrainer`, `verifyMember`.
 */
module Auth {
  import opened Js
  import opened Http

  /** The three roles the service knows, with the exact strings stored in tokens. */
  datatype Role = Admin | Trainer | Member {

    function Name(): string {
      match this
      case Admin => "admin"
      case Trainer => "Trainer"
      case Member => "member"
    }

    /** The word used in the gate's 403 message. */
    function Label(): string {
      match this
      case Admin => "Admin"
      case Trainer => "Trainer"
      case Member => "Member"
    }
  }

  /** Reads a role string into the closed enumeration; any other spelling is no role. */
  function ParseRole(s: string): (r: Option<Role>)
    ensures r.Some? ==> r.value.Name() == s
    ensures r.None? ==> forall role: Role :: role.Name() != s
  {
    if s == "admin" then Some(Admin)
    else if s == "Trainer" then Some(Trainer)
    else if s == "member" then Some(Member)
    else None
  }

  /** The decoded payload of a verified token; `role` is `None` when the payload has no role field. */
  datatype Claims = Claims(email: string, role: Option<string>)

  /** What a middleware chain decides: continue with the request's user, or answer with a status. */
  datatype Decision = Allow(user: Claims) | Deny(status: Status, message: string)

  /** A role gate: `req.user && req.user?.role === <name>`, otherwise 403. */
  function RoleGate(user: Option<Claims>, required: Role): (d: Decision)
    ensures d.Allow? ==> user == Some(d.user) && d.user.role == Some(required.Name())
    ensures user.Some? && ParseRole(user.value.role.GetOr("")) == Some(required) ==> d.Allow?
    ensures d.Deny? ==> d.status == Forbidden
  {
    if user.Some? && user.value.role == Some(required.Name()) then Allow(user.value)
    else Deny(Forbidden, "Forbidden. " + required.Label() + " role required.")
  }

  const BearerPrefix: string := "Bearer "

  /** The longest prefix of `s` without a space. */
  function UpToSpace(s: string): (r: string)
    ensures StartsWith(s, r) && ' ' !in r
    ensures |r| < |s| ==> s[|r|] == ' '
  {
    if |s| == 0 || s[0] == ' ' then [] else [s[0]] + UpToSpace(s[1..])
  }

  /** `authHeader.split(" ")[1]` for a header that starts with the bearer prefix. */
  function BearerToken(header: string): (t: string)
    requires StartsWith(header, BearerPrefix)
    ensures ' ' !in t
    ensures StartsWith(header, BearerPrefix + t)
    ensures |BearerPrefix| + |t| < |header| ==> header[|BearerPrefix| + |t|] == ' '
  {
    var t := UpToSpace(header[|BearerPrefix|..]);
    assert header[..|BearerPrefix| + |t|] == BearerPrefix + t;
    t
  }

  /**
   `verifyToken`: a missing header, or one that does not start with the bearer
   prefix, is 401; otherwise the token is checked by `verify` (signature and
   expiry, outside this model) and a failed check is 401 too.
   */
  function VerifyToken(header: Option<string>, verify: string -> Option<Claims>): (d: Decision)
    ensures d.Deny? ==> d.status == Unauthorized
    ensures header.None? || !StartsWith(header.value, BearerPrefix) ==> d.Deny?
    ensures d.Allow? ==> header.Some? && StartsWith(header.value, BearerPrefix)
                         && verify(BearerToken(header.value)) == Some(d.user)
    ensures header.Some? && StartsWith(header.value, BearerPrefix) && verify(BearerToken(header.value)).Some?
            ==> d == Allow(verify(BearerToken(header.value)).value)
  {
    if header.None? || header.value == "" || !StartsWith(header.value, BearerPrefix) then
      Deny(Unauthorized, "unauthorized")
    else
      match verify(BearerToken(header.value))
      case None => Deny(Unauthorized, "unauthorized")
      case Some(claims) => Allow(claims)
  }

  /** A route's middleware chain: `verifyToken`, then the role gate when the route has one. */
  function Authorize(header: Option<string>, verify: string -> Option<Claims>, required: Option<Role>): (d: Decision)
    ensures VerifyToken(header, verify).Deny? ==> d == VerifyToken(header, verify)
    ensures d.Deny? && d.status == Unauthorized ==> VerifyToken(header, verify).Deny?
    ensures d.Allow? ==> VerifyToken(header, verify) == Allow(d.user)
    ensures d.Allow? && required.Some? ==> ParseRole(d.user.role.GetOr("")) == required
    ensures VerifyToken(header, verify).Allow?
            && (required.None? || VerifyToken(header, verify).user.role == Some(required.value.Name()))
            ==> d == VerifyToken(header, verify)
    ensures VerifyToken(header, verify).Allow? && required.Some?
            && VerifyToken(header, verify).user.role != Some(required.value.Name())
            ==> d.Deny? && d.status == Forbidden
  {
    match VerifyToken(header, verify)
    case Deny(status, message) => Deny(status, message)
    case Allow(user) =>
      if required.None? then Allow(user)
      else
        var d := RoleGate(Some(user), required.value);
        assert d.Allow? ==> ParseRole(user.role.value) == required;
        d
  }

  /** A gate passes exactly when the user's role string reads as the required role. */
  lemma GateIsRoleEquality(user: Option<Claims>, required: Role)
    ensures RoleGate(user, required).Allow?
        <==> user.Some? && user.value.role.Some? && ParseRole(user.value.role.value) == Some(required)
  {
    if user.Some? && user.value.role.Some? && ParseRole(user.value.role.value) == Some(required) {
      assert required.Name() == user.value.role.value;
    }
  }

  /** There is no role hierarchy: no user passes two different gates. */
  lemma NoHierarchy(user: Option<Claims>, r1: Role, r2: Role)
    requires r1 != r2
    ensures !(RoleGate(user, r1).Allow? && RoleGate(user, r2).Allow?)
  {
  }

  /** Role strings are compared case-sensitively: "trainer" is not "Trainer", "Admin" is not "admin". */
  lemma GatesAreCaseSensitive(email: string)
    ensures RoleGate(Some(Claims(email, Some("trainer"))), Trainer).Deny?
    ensures RoleGate(Some(Claims(email, Some("Admin"))), Admin).Deny?
    ensures RoleGate(Some(Claims(email, Some("admin"))), Trainer).Deny?
    ensures RoleGate(Some(Claims(email, None)), Member).Deny?
  {
    assert "trainer" != "Trainer" by { assert "trainer"[0] != "Trainer"[0]; }
    assert "Admin" != "admin" by { assert "Admin"[0] != "admin"[0]; }
    assert "admin" != "Trainer" by { assert "admin"[0] != "Trainer"[0]; }
  }

  /** A well-formed bearer header carries its token through `split(" ")[1]` unchanged. */
  lemma {:induction false} BearerRoundTrip(token: string, trailer: string)
    requires ' ' !in token
    requires trailer == [] || trailer[0] == ' '
    ensures BearerToken(BearerPrefix + token + trailer) == token
  {
    var h := BearerPrefix + token + trailer;
    assert h[|BearerPrefix|..] == token + trailer;
    UpToSpaceOfToken(token, trailer);
  }

  lemma {:induction false} UpToSpaceOfToken(token: string, trailer: string)
    requires ' ' !in token
    requires trailer == [] || trailer[0] == ' '
    ensures UpToSpace(token + trailer) == token
    decreases |token|
  {
    if |token| > 0 {
      assert (token + trailer)[1..] == token[1..] + trailer;
      UpToSpaceOfToken(token[1..], trailer);
      assert [token[0]] + token[1..] == token;
    } else {
      assert token + trailer == trailer;
    }
  }

  /**
   Authentication comes before any role check: without a bearer header every
   route answers 401, whatever role it requires.
   */
  lemma MissingBearerIsUnauthorized(header: Option<string>, verify: string -> Option<Claims>, required: Option<Role>)
    requires header.None? || !StartsWith(header.value, BearerPrefix)
    ensures Authorize(header, verify, required) == Deny(Unauthorized, "unauthorized")
  {
  }

  /** With a token that verifies, the outcome is decided by the role alone: 403 on a mismatch. */
  lemma VerifiedTokenMeetsGate(token: string, verify: string -> Option<Claims>, user: Claims, required: Role)
    requires ' ' !in token
    requires verify(token) == Some(user)
    ensures Authorize(Some(BearerPrefix + token), verify, Some(required)) == RoleGate(Some(user), required)
  {
    BearerRoundTrip(token, []);
    assert BearerPrefix + token + [] == BearerPrefix + token;
  }
}

=== FILE: balance.dfy ===
/**
 The admin balance report (`GET /admin/balance`): total of all payments, the
 first ten bookings as transactions, the subscriber count, and the number of
 distinct paying users.
 */
module Balance {
  import opened Js

  /** A stored payment; `amount` is the provider's integer amount in minor units. */
  datatype Payment = Payment(amount: int)

  /** A stored booking; only the fields the report reads. */
  datatype Booking = Booking(userName: Value, userEmail: string, price: Value, bookingDate: Value)

  /** One line of `recentTransactions`. */
  datatype Transaction = Transaction(memberName: Value, amount: Value, date: Value)

  datatype Report = Report(totalBalance: int, recentTransactions: seq<Transaction>,
                           totalSubscribers: nat, totalPaidMembers: nat)

  const RecentLimit: nat := 10

  /** The sum of the payment amounts, folded from the left from 0 as `reduce` does. */
  function Total(ps: seq<Payment>): (t: int)
    ensures (forall i :: 0 <= i < |ps| ==> ps[i].amount >= 0) ==> forall i :: 0 <= i < |ps| ==> 0 <= ps[i].amount <= t
  {
    if |ps| == 0 then 0 else Total(ps[..|ps| - 1]) + ps[|ps| - 1].amount
  }

  /** The projection `{ memberName: userName, amount: price, date: bookingDate }`. */
  function ToTransaction(b: Booking): Transaction {
    Transaction(b.userName, b.price, b.bookingDate)
  }

  /** The groups `$group: { _id: "$userEmail" }` forms: the distinct emails of the bookings. */
  function PaidMembers(bs: seq<Booking>): set<string> {
    set i | 0 <= i < |bs| :: bs[i].userEmail
  }

  /** An email forms a group exactly when some booking carries it. */
  lemma PaidMembersAreBookingEmails(bs: seq<Booking>, e: string)
    ensures e in PaidMembers(bs) <==> exists i :: 0 <= i < |bs| && bs[i].userEmail == e
  {
  }

  /** `$count` emits no document for an empty input; the handler then falls back to 0. */
  function CountStage(groups: set<string>): (r: Option<nat>)
    ensures r.None? <==> groups == {}
    ensures r.Some? ==> r.value == |groups| && r.value >= 1
  {
    if groups == {} then None else Some(|groups|)
  }

  /**
   The report as the handler assembles it from the fetched collections and the
   subscriber count: the running sum, the mapped bookings cut to ten, and the
   number of email groups.
   */
  method BalanceReport(payments: seq<Payment>, bookings: seq<Booking>, subscribers: nat) returns (r: Report)
    ensures r.totalBalance == Total(payments)
    ensures |r.recentTransactions| == Min(RecentLimit, |bookings|)
    ensures forall i :: 0 <= i < |r.recentTransactions| ==> r.recentTransactions[i] == ToTransaction(bookings[i])
    ensures r.totalSubscribers == subscribers
    ensures r.totalPaidMembers == |PaidMembers(bookings)|
  {
    var total := 0;
    var i := 0;
    while i < |payments|
      invariant 0 <= i <= |payments|
      invariant total == Total(payments[..i])
    {
      assert payments[..i + 1][..i] == payments[..i];
      total := total + payments[i].amount;
      i := i + 1;
    }
    assert payments[..|payments|] == payments;

    var mapped := seq(|bookings|, k requires 0 <= k < |bookings| => ToTransaction(bookings[k]));
    var recent := mapped[..Min(RecentLimit, |bookings|)];

    var groups: set<string> := {};
    var j := 0;
    while j < |bookings|
      invariant 0 <= j <= |bookings|
      invariant groups == PaidMembers(bookings[..j])
    {
      assert PaidMembers(bookings[..j + 1]) == PaidMembers(bookings[..j]) + {bookings[j].userEmail} by {
        assert forall k :: 0 <= k < j ==> bookings[..j + 1][k] == bookings[..j][k];
        assert bookings[..j + 1][j] == bookings[j];
      }
      groups := groups + {bookings[j].userEmail};
      j := j + 1;
    }
    assert bookings[..|bookings|] == bookings;

    r := Report(total, recent, subscribers, CountStage(groups).GetOr(0));
  }

  /** The total does not depend on how the payments are split: it adds across concatenation. */
  lemma {:induction false} TotalConcat(a: seq<Payment>, b: seq<Payment>)
    ensures Total(a + b) == Total(a) + Total(b)
    decreases |b|
  {
    if |b| == 0 {
      assert a + b == a;
    } else {
      var b' := b[..|b| - 1];
      assert (a + b)[..|a + b| - 1] == a + b';
      TotalConcat(a, b');
    }
  }

  /** There are never more paying members than bookings, and at least one as soon as there is a booking. */
  lemma {:induction false} PaidMembersBounds(bs: seq<Booking>)
    ensures |PaidMembers(bs)| <= |bs|
    ensures |bs| > 0 ==> |PaidMembers(bs)| > 0
    decreases |bs|
  {
    if |bs| > 0 {
      var init := bs[..|bs| - 1];
      PaidMembersBounds(init);
      var last := bs[|bs| - 1].userEmail;
      assert PaidMembers(bs) == PaidMembers(init) + {last} by {
        assert forall k :: 0 <= k < |init| ==> init[k] == bs[k];
      }
      assert |PaidMembers(init) + {last}| <= |PaidMembers(init)| + 1 by {
        if last in PaidMembers(init) {
          assert PaidMembers(init) + {last} == PaidMembers(init);
        }
      }
      assert last in PaidMembers(bs);
    }
  }

  /** Two payments of 50 and 30 total 80; bookings by x, x and y count two paying members. */
  lemma ReportExample(n: Value, p: Value, d: Value)
    ensures Total([Payment(50), Payment(30)]) == 80
    ensures |PaidMembers([Booking(n, "x", p, d), Booking(n, "x", p, d), Booking(n, "y", p, d)])| == 2
  {
    var bs := [Booking(n, "x", p, d), Booking(n, "x", p, d), Booking(n, "y", p, d)];
    assert [Payment(50), Payment(30)][..1] == [Payment(50)];
    assert PaidMembers(bs) == {"x", "y"} by {
      assert bs[0].userEmail == "x" && bs[2].userEmail == "y";
    }
    assert "x" != "y";
  }
}

=== FILE: email.dfy ===
/**
 `isValidEmail`: the check the vote handler applies to the voter's address,
 the regular expression `^[^\s@]+@[^\s@]+\.[^\s@]+$` written out over strings.
 */
module Email {
  import opened Js

  /** Every character is in the class `[^\s@]`. */
  predicate Plain(s: string) {
    forall k :: 0 <= k < |s| ==> !IsSpace(s[k]) && s[k] != '@'
  }

  /**
   The regular expression as written: the whole string is a non-empty run of
   `[^\s@]`, an '@', a non-empty run, a '.', and a non-empty run.
   */
  predicate IsValidEmail(s: string)
    ensures IsValidEmail(s) ==> |s| >= 5 && Plain(s[..1]) && Plain(s[|s| - 1..])
  {
    exists i, j :: 0 < i < |s| && i + 1 < j < |s| - 1
      && s[i] == '@' && s[j] == '.'
      && Plain(s[..i]) && Plain(s[i + 1..j]) && Plain(s[j + 1..])
  }

  /**
   The same condition stated as properties of the address: no white space,
   exactly one '@' with something before it, and after it a '.' that is
   neither the first nor the last character of the domain.
   */
  predicate WellFormedAddress(s: string) {
    && (forall k :: 0 <= k < |s| ==> !IsSpace(s[k]))
    && (exists a :: 0 < a < |s| && s[a] == '@'
         && (forall k :: 0 <= k < |s| && k != a ==> s[k] != '@')
         && (exists d :: a + 1 < d < |s| - 1 && s[d] == '.'))
  }

  /** The regular expression accepts exactly the well-formed addresses. */
  lemma EmailPattern(s: string)
    ensures IsValidEmail(s) <==> WellFormedAddress(s)
  {
    if IsValidEmail(s) {
      var i, j :| 0 < i < |s| && i + 1 < j < |s| - 1
        && s[i] == '@' && s[j] == '.'
        && Plain(s[..i]) && Plain(s[i + 1..j]) && Plain(s[j + 1..]);
      MatchIsWellFormed(s, i, j);
    }
    if WellFormedAddress(s) {
      var a :| 0 < a < |s| && s[a] == '@'
        && (forall k :: 0 <= k < |s| && k != a ==> s[k] != '@')
        && (exists d :: a + 1 < d < |s| - 1 && s[d] == '.');
      var d :| a + 1 < d < |s| - 1 && s[d] == '.';
      WellFormedMatches(s, a, d);
    }
  }

  lemma MatchIsWellFormed(s: string, i: int, j: int)
    requires 0 < i < |s| && i + 1 < j < |s| - 1 && s[i] == '@' && s[j] == '.'
    requires Plain(s[..i]) && Plain(s[i + 1..j]) && Plain(s[j + 1..])
    ensures WellFormedAddress(s)
  {
    forall k | 0 <= k < |s|
      ensures !IsSpace(s[k]) && (k != i ==> s[k] != '@')
    {
      if k < i {
        assert s[k] == s[..i][k];
      } else if i < k < j {
        assert s[k] == s[i + 1..j][k - i - 1];
      } else if j < k {
        assert s[k] == s[j + 1..][k - j - 1];
      }
    }
    assert 0 < i < |s| && s[i] == '@' && (exists d :: i + 1 < d < |s| - 1 && s[d] == '.') by {
      assert i + 1 < j < |s| - 1 && s[j] == '.';
    }
  }

  lemma WellFormedMatches(s: string, a: int, d: int)
    requires forall k :: 0 <= k < |s| ==> !IsSpace(s[k])
    requires 0 < a < |s| && s[a] == '@' && forall k :: 0 <= k < |s| && k != a ==> s[k] != '@'
    requires a + 1 < d < |s| - 1 && s[d] == '.'
    ensures IsValidEmail(s)
  {
    var local := s[..a];
    assert Plain(local) by {
      forall k | 0 <= k < |local| ensures !IsSpace(local[k]) && local[k] != '@' {
        assert local[k] == s[k];
      }
    }
    var domain := s[a + 1..d];
    assert Plain(domain) by {
      forall k | 0 <= k < |domain| ensures !IsSpace(domain[k]) && domain[k] != '@' {
        assert domain[k] == s[a + 1 + k];
      }
    }
    var tld := s[d + 1..];
    assert Plain(tld) by {
      forall k | 0 <= k < |tld| ensures !IsSpace(tld[k]) && tld[k] != '@' {
        assert tld[k] == s[d + 1 + k];
      }
    }
  }

  /** A sample address the regular expression accepts. */
  lemma AcceptedEmail()
    ensures IsValidEmail("a@b.com")
  {
    var s := "a@b.com";
    assert s[1] == '@' && s[3] == '.';
    assert s[..1] == "a" && s[2..3] == "b" && s[4..] == "com";
    assert Plain("a") && Plain("b") && Plain("com");
  }

  /** Addresses without a '.' after the '@', or with nothing before the '@', are refused. */
  lemma RefusedEmailsShape()
    ensures !IsValidEmail("a@b")
    ensures !IsValidEmail("@b.com")
    ensures !IsValidEmail("a@.com")
  {
    EmailPattern("a@b");
    EmailPattern("@b.com");
    assert "@b.com"[0] == '@';
    EmailPattern("a@.com");
    assert "a@.com"[1] == '@';
  }

  /** Addresses with white space or a second '@' are refused. */
  lemma RefusedEmailsCharacters()
    ensures !IsValidEmail("a b@c.com")
    ensures !IsValidEmail("a@b@c.com")
  {
    EmailPattern("a b@c.com");
    assert IsSpace("a b@c.com"[1]);
    EmailPattern("a@b@c.com");
    assert "a@b@c.com"[1] == '@' && "a@b@c.com"[3] == '@';
  }
}

=== FILE: http.dfy ===
/** HTTP status outcomes the handlers answer with. */
module Http {

  /** 200, 201, 400, 401, 403, 404 and 500. */
  datatype Status = Ok | Created | BadRequest | Unauthorized | Forbidden | NotFound | InternalError
}

=== FILE: js.dfy ===
/**
 The few JavaScript semantics the request handlers lean on: the values a parsed
 JSON body can hold, truthiness (`!x`), the `\s` character class, `startsWith`
 and `parseInt`.
 */
module Js {

  datatype Option<+T> = None | Some(value: T) {

    /** The wrapped value, or `default` when absent (JavaScript's `x || default` on a maybe-value). */
    function GetOr(default: T): T {
      match this
      case Some(v) => v
      case None => default
    }
  }

  /**
   A field of a parsed JSON request body. `Undefined` is a field that is absent;
   `Composite` is any object or array (always truthy). JSON cannot carry NaN or
   the infinities, so numbers are reals.
   */
  datatype Value = Undefined | Null | Bool(b: bool) | Number(n: real) | Str(s: string) | Composite

  /** JavaScript truthiness: `!v` holds exactly for the falsy values. */
  predicate Truthy(v: Value)
    ensures !Truthy(v) <==> v in {Undefined, Null, Bool(false), Number(0.0), Str("")}
  {
    match v
    case Undefined => false
    case Null => false
    case Bool(b) => b
    case Number(n) => n != 0.0
    case Str(s) => s != ""
    case Composite => true
  }

  /** The characters matched by the regular-expression class `\s` (white space and line terminators). */
  predicate IsSpace(c: char) {
    || c == '\t' || c == '\n' || c == '\U{000B}' || c == '\U{000C}' || c == '\r' || c == ' '
    || c == '\U{00A0}' || c == '\U{1680}' || ('\U{2000}' <= c <= '\U{200A}')
    || c == '\U{2028}' || c == '\U{2029}' || c == '\U{202F}' || c == '\U{205F}'
    || c == '\U{3000}' || c == '\U{FEFF}'
  }

  /** `s.startsWith(prefix)`. */
  predicate StartsWith(s: string, prefix: string) {
    |prefix| <= |s| && s[..|prefix|] == prefix
  }

  /** Drops leading white space, as `parseInt` does before reading a number. */
  function TrimStart(s: string): (r: string)
    ensures |r| <= |s| && r == s[|s| - |r|..]
    ensures forall i :: 0 <= i < |s| - |r| ==> IsSpace(s[i])
    ensures r == [] || !IsSpace(r[0])
  {
    if |s| > 0 && IsSpace(s[0]) then TrimStart(s[1..]) else s
  }

  /** The value of `c` as a digit in base `radix` (10 or 16), if it is one. */
  function DigitValue(c: char, radix: nat): (d: Option<nat>)
    ensures d.Some? ==> d.value < radix
  {
    if '0' <= c <= '9' && (c as int) - ('0' as int) < radix then Some((c as int) - ('0' as int))
    else if radix == 16 && 'a' <= c <= 'f' then Some((c as int) - ('a' as int) + 10)
    else if radix == 16 && 'A' <= c <= 'F' then Some((c as int) - ('A' as int) + 10)
    else None
  }

  predicate AllDigits(ds: string, radix: nat) {
    forall i :: 0 <= i < |ds| ==> DigitValue(ds[i], radix).Some?
  }

  /** The longest prefix of `s` made of base-`radix` digits. */
  function DigitPrefix(s: string, radix: nat): (ds: string)
    ensures |ds| <= |s| && ds == s[..|ds|]
    ensures AllDigits(ds, radix)
    ensures |ds| < |s| ==> DigitValue(s[|ds|], radix).None?
  {
    if |s| > 0 && DigitValue(s[0], radix).Some? then [s[0]] + DigitPrefix(s[1..], radix) else []
  }

  /** The number a string of base-`radix` digits denotes, most significant digit first. */
  function DigitsValue(ds: string, radix: nat): (v: nat)
    requires AllDigits(ds, radix)
  {
    if |ds| == 0 then 0
    else DigitsValue(ds[..|ds| - 1], radix) * radix + DigitValue(ds[|ds| - 1], radix).value
  }

  /**
   `parseInt(s)` with no radix: skip leading white space, read an optional sign,
   read base 16 after a `0x`/`0X` prefix and base 10 otherwise, stop at the first
   non-digit. `None` stands for NaN (no digit at all). Negative zero is 0.
   */
  function ParseInt(s: string): Option<int> {
    var t := TrimStart(s);
    var signed := |t| > 0 && (t[0] == '-' || t[0] == '+');
    match ParseUnsigned(if signed then t[1..] else t)
    case None => None
    case Some(v) => Some(if signed && t[0] == '-' then -v else v)
  }

  /** The unsigned part of `parseInt`: a hexadecimal number after `0x`/`0X`, a decimal one otherwise. */
  function ParseUnsigned(u: string): (r: Option<int>)
    ensures r.Some? ==> r.value >= 0
    ensures r.None? <==> |u| == 0 || DigitValue(u[0], 10).None?
                         || (u[0] == '0' && |u| >= 2 && (u[1] == 'x' || u[1] == 'X') && (|u| == 2 || DigitValue(u[2], 16).None?))
  {
    var hex := |u| >= 2 && u[0] == '0' && (u[1] == 'x' || u[1] == 'X');
    var radix := if hex then 16 else 10;
    var ds := DigitPrefix(if hex then u[2..] else u, radix);
    if ds == [] then None else Some(DigitsValue(ds, radix))
  }

  /** `Math.min` on integers. */
  function Min(a: int, b: int): (m: int)
    ensures m <= a && m <= b
    ensures m == a || m == b
  {
    if a <= b then a else b
  }

  /** The decimal rendering of a natural number, without leading zeros. */
  function Decimal(n: nat): (s: string)
    ensures |s| > 0 && AllDigits(s, 10)
    ensures s[0] != '-' && s[0] != '+' && !IsSpace(s[0])
    ensures |s| >= 2 ==> s[0] != '0'
  {
    if n < 10 then [(('0' as int) + n) as char]
    else Decimal(n / 10) + [(('0' as int) + n % 10) as char]
  }

  lemma {:induction false} DecimalValue(n: nat)
    ensures DigitsValue(Decimal(n), 10) == n
    decreases n
  {
    if n >= 10 {
      var s := Decimal(n);
      assert s[..|s| - 1] == Decimal(n / 10);
      DecimalValue(n / 10);
    }
  }

  lemma {:induction false} DigitPrefixOfDigits(ds: string, rest: string, radix: nat)
    requires AllDigits(ds, radix)
    requires rest == [] || DigitValue(rest[0], radix).None?
    ensures DigitPrefix(ds + rest, radix) == ds
    decreases |ds|
  {
    if |ds| > 0 {
      assert (ds + rest)[1..] == ds[1..] + rest;
      DigitPrefixOfDigits(ds[1..], rest, radix);
    } else {
      assert ds + rest == rest;
    }
  }

  /** Reading an unsigned decimal rendering followed by non-digits. */
  lemma UnsignedDecimal(m: nat, rest: string)
    requires rest == [] || (DigitValue(rest[0], 10).None? && (m != 0 || (rest[0] != 'x' && rest[0] != 'X')))
    ensures ParseUnsigned(Decimal(m) + rest) == Some(m)
  {
    var d := Decimal(m);
    var u := d + rest;
    if |u| >= 2 && u[0] == '0' {
      assert u[0] == d[0];
      assert |d| == 1;
      assert u[1] == rest[0];
    }
    DigitPrefixOfDigits(d, rest, 10);
    DecimalValue(m);
  }

  /** `parseInt` reads back the decimal rendering of a natural number, whatever non-digit text follows it. */
  lemma ParseIntDecimal(m: nat, rest: string)
    requires rest == [] || (DigitValue(rest[0], 10).None? && (m != 0 || (rest[0] != 'x' && rest[0] != 'X')))
    ensures ParseInt(Decimal(m) + rest) == Some(m)
  {
    var u := Decimal(m) + rest;
    assert u[0] == Decimal(m)[0];
    assert TrimStart(u) == u;
    UnsignedDecimal(m, rest);
  }

  /** ... and of a negated one after a minus sign. */
  lemma ParseIntNegatedDecimal(m: nat, rest: string)
    requires rest == [] || (DigitValue(rest[0], 10).None? && (m != 0 || (rest[0] != 'x' && rest[0] != 'X')))
    ensures ParseInt("-" + (Decimal(m) + rest)) == Some(0 - m)
  {
    UnsignedDecimal(m, rest);
    ParseIntMinus(Decimal(m) + rest, m);
  }

  /** A leading minus sign negates the unsigned reading of the rest. */
  lemma ParseIntMinus(d: string, v: nat)
    requires ParseUnsigned(d) == Some(v)
    ensures ParseInt("-" + d) == Some(0 - v)
  {
    MinusIsNotTrimmed(d);
    assert ("-" + d)[1..] == d;
  }

  lemma MinusIsNotTrimmed(d: string)
    ensures TrimStart("-" + d) == "-" + d
  {
    assert !IsSpace(("-" + d)[0]);
  }

  /** Text that starts with neither white space nor a sign is read unsigned. */
  lemma ParseIntUnsigned(u: string)
    requires |u| > 0 && !IsSpace(u[0]) && u[0] != '-' && u[0] != '+'
    ensures ParseInt(u) == ParseUnsigned(u)
  {
    assert TrimStart(u) == u;
  }

  /** Reading `0x` and hexadecimal digits followed by a non-hexadecimal character. */
  lemma UnsignedHex(ds: string, rest: string)
    requires |ds| > 0 && AllDigits(ds, 16)
    requires rest == [] || DigitValue(rest[0], 16).None?
    ensures ParseUnsigned("0x" + (ds + rest)) == Some(DigitsValue(ds, 16))
  {
    var u := "0x" + (ds + rest);
    assert u[2..] == ds + rest;
    DigitPrefixOfDigits(ds, rest, 16);
  }

  /** `parseInt` reads `0x` followed by hexadecimal digits in base 16, whatever non-hexadecimal text follows. */
  lemma ParseIntHex(ds: string, rest: string)
    requires |ds| > 0 && AllDigits(ds, 16)
    requires rest == [] || DigitValue(rest[0], 16).None?
    ensures ParseInt("0x" + (ds + rest)) == Some(DigitsValue(ds, 16))
  {
    UnsignedHex(ds, rest);
    var u := "0x" + (ds + rest);
    assert u[0] == '0';
    ParseIntUnsigned(u);
  }

  /** Reading decimal digits, leading zeros allowed, followed by a non-digit. */
  lemma UnsignedDigits(ds: string, rest: string)
    requires |ds| > 0 && AllDigits(ds, 10)
    requires rest == [] || DigitValue(rest[0], 10).None?
    requires ds != "0" || rest == [] || (rest[0] != 'x' && rest[0] != 'X')
    ensures ParseUnsigned(ds + rest) == Some(DigitsValue(ds, 10))
  {
    var u := ds + rest;
    if |u| >= 2 && u[0] == '0' {
      if |ds| >= 2 {
        assert u[1] == ds[1] && DigitValue(ds[1], 10).Some?;
      } else {
        assert ds == "0";
        assert u[1] == rest[0];
      }
    }
    DigitPrefixOfDigits(ds, rest, 10);
  }

  /** `parseInt` reads decimal digits, leading zeros included, in base 10. */
  lemma ParseIntDigits(ds: string, rest: string)
    requires |ds| > 0 && AllDigits(ds, 10)
    requires rest == [] || DigitValue(rest[0], 10).None?
    requires ds != "0" || rest == [] || (rest[0] != 'x' && rest[0] != 'X')
    ensures ParseInt(ds + rest) == Some(DigitsValue(ds, 10))
  {
    var u := ds + rest;
    assert '0' <= u[0] <= '9' by {
      assert u[0] == ds[0] && DigitValue(ds[0], 10).Some?;
    }
    ParseIntUnsigned(u);
    UnsignedDigits(ds, rest);
  }

  /** `parseInt("0x1A")` is 26. */
  lemma ParseIntHexExample()
    ensures ParseInt("0x1A") == Some(26)
  {
    assert DigitsValue("1A", 16) == 26 by {
      assert "1A"[..1] == "1";
    }
    assert "0x1A" == "0x" + ("1A" + []);
    ParseIntHex("1A", []);
  }

  /** `parseInt("007")` is 7. */
  lemma ParseIntLeadingZerosExample()
    ensures ParseInt("007") == Some(7)
  {
    assert DigitsValue("007", 10) == 7 by {
      assert "007"[..2] == "00";
      assert "00"[..1] == "0";
    }
    assert "007" == "007" + [];
    ParseIntDigits("007", []);
  }

  /** Text whose first character is neither white space, a sign nor a decimal digit parses to NaN. */
  lemma NoDigitsIsNaN(s: string)
    requires |s| > 0 && !IsSpace(s[0]) && s[0] != '-' && s[0] != '+' && DigitValue(s[0], 10).None?
    ensures ParseInt(s) == None
  {
    assert !IsSpace(s[0]);
    assert TrimStart(s) == s;
    assert s[0] != '-' && s[0] != '+';
    assert ParseInt(s) == ParseUnsigned(s);
    assert DigitValue(s[0], 10).None?;
    assert DigitPrefix(s, 10) == [];
  }
}

=== FILE: paging.dfy ===
/**
 The page arithmetic of `GET /forum/posts`: the page number read from the
 query string, the number of posts skipped, the six posts shown, and the page
 count. Posts arrive already ordered by creation time, newest first, and are
 joined with their authors' user records.
 */
module Paging {
  import opened Js
  import opened Http
  import Seqs

  const PageSize: nat := 6

  /**
   `parseInt(req.query.page) || 1`. An absent parameter is read as the text
   "undefined"; NaN and 0 fall back to page 1, every other number is kept,
   negative ones included.
   */
  function PageNumber(query: Option<string>): (page: int)
    ensures page != 0
    ensures ParseInt(query.GetOr("undefined")).None? ==> page == 1
    ensures ParseInt(query.GetOr("undefined")).Some? && page != 1 ==> ParseInt(query.GetOr("undefined")) == Some(page)
    ensures ParseInt(query.GetOr("undefined")).Some? && ParseInt(query.GetOr("undefined")).value != 0
            ==> page == ParseInt(query.GetOr("undefined")).value
  {
    var parsed := ParseInt(query.GetOr("undefined"));
    if parsed.None? || parsed.value == 0 then 1 else parsed.value
  }

  /** `(page - 1) * limit`: the rows before the page. */
  function Skip(page: int): (s: int)
    ensures s % PageSize == 0
    ensures s >= 0 <==> page >= 1
    ensures page >= 1 ==> s < PageSize * page
    ensures s / PageSize == page - 1
  {
    (page - 1) * PageSize
  }

  /** `Math.ceil(totalPosts / limit)`: the fewest pages of six that hold every post. */
  function TotalPages(total: nat): (n: nat)
    ensures PageSize * (n - 1) < total <= PageSize * n
  {
    (total + PageSize - 1) / PageSize
  }

  datatype Listing<T> = Listing(status: Status, posts: seq<T>, totalPages: nat)

  /**
   One page of the ordered rows, with the page count taken from the number of
   posts (`countDocuments({})`), which the rows need not match. A negative skip
   (page below 1) is refused by the store's `$skip` stage, which the handler
   answers with 500.
   */
  function ListPage<T>(ordered: seq<T>, totalPosts: nat, page: int): (r: Listing<T>)
    ensures r.status == Ok <==> page >= 1
    ensures r.status == Ok ==> r.totalPages == TotalPages(totalPosts)
    ensures r.status == Ok ==> forall i :: 0 <= i < |r.posts| ==> Skip(page) + i < |ordered| && r.posts[i] == ordered[Skip(page) + i]
    ensures r.status == Ok ==> |r.posts| == Min(PageSize, |ordered| - Min(Skip(page), |ordered|))
    ensures r.status == Ok && |ordered| == totalPosts ==> (|r.posts| > 0 <==> page <= r.totalPages)
    ensures r.status == Ok && |ordered| == totalPosts && page < r.totalPages ==> |r.posts| == PageSize
    ensures r.status != Ok ==> r.posts == [] && r.totalPages == 0
  {
    var skip := Skip(page);
    if skip < 0 then Listing(InternalError, [], 0)
    else
      var from := Min(skip, |ordered|);
      var to := Min(skip + PageSize, |ordered|);
      Listing(Ok, ordered[from..to], TotalPages(totalPosts))
  }

  /** The rows of pages 1 to k, one page after another. */
  function Pages<T>(ordered: seq<T>, totalPosts: nat, k: nat): seq<T> {
    if k == 0 then [] else Pages(ordered, totalPosts, k - 1) + ListPage(ordered, totalPosts, k).posts
  }

  lemma {:induction false} PagesArePrefix<T>(ordered: seq<T>, totalPosts: nat, k: nat)
    ensures Pages(ordered, totalPosts, k) == ordered[..Min(PageSize * k, |ordered|)]
    decreases k
  {
    if k > 0 {
      PagesArePrefix(ordered, totalPosts, k - 1);
      var a := Min(PageSize * (k - 1), |ordered|);
      var b := Min(PageSize * k, |ordered|);
      assert Skip(k) == PageSize * (k - 1) && PageSize * k == Skip(k) + PageSize;
      assert ListPage(ordered, totalPosts, k).posts == ordered[a..b];
      assert ordered[..a] + ordered[a..b] == ordered[..b];
    }
  }

  /** When there is one row per post, reading every page in turn gives back every row, once, in order. */
  lemma PagesCoverListing<T>(ordered: seq<T>, totalPosts: nat)
    requires |ordered| == totalPosts
    ensures Pages(ordered, totalPosts, TotalPages(totalPosts)) == ordered
  {
    PagesArePrefix(ordered, totalPosts, TotalPages(totalPosts));
  }

  /** A listed post with, when the author lookup found one, the joined user record. */
  datatype Row<P, U> = Row(post: P, user: Option<U>)

  /**
   The users `$lookup` pairs with a post: those whose `username` equals the
   post's `author`, a missing field on either side comparing as null.
   */
  function Matches<U>(users: seq<U>, username: U -> Option<string>, author: Option<string>): (m: seq<U>)
    ensures forall i :: 0 <= i < |m| ==> m[i] in users && username(m[i]) == author
    ensures forall i :: 0 <= i < |users| && username(users[i]) == author ==> users[i] in m
  {
    Seqs.Filter(users, (u: U) => username(u) == author)
  }

  /** `$unwind` with `preserveNullAndEmptyArrays`: one row per match, or one row without a user. */
  function Unwind<P, U>(p: P, m: seq<U>): (rows: seq<Row<P, U>>)
    ensures |rows| == if m == [] then 1 else |m|
    ensures forall i :: 0 <= i < |rows| ==> rows[i].post == p
    ensures forall i :: 0 <= i < |m| ==> rows[i].user == Some(m[i])
    ensures m == [] ==> rows[0].user.None?
  {
    if m == [] then [Row(p, None)] else seq(|m|, i requires 0 <= i < |m| => Row(p, Some(m[i])))
  }

  /** The `$lookup` and `$unwind` stages of the listing as they are written. */
  function LookupUnwind<P, U>(posts: seq<P>, author: P -> Option<string>,
                              users: seq<U>, username: U -> Option<string>): (rows: seq<Row<P, U>>)
    ensures |rows| >= |posts|
    ensures forall i :: 0 <= i < |rows| ==> rows[i].post in posts
  {
    if posts == [] then []
    else Unwind(posts[0], Matches(users, username, author(posts[0]))) + LookupUnwind(posts[1..], author, users, username)
  }

  /** The written join drops no post: every post has at least one row. */
  lemma {:induction false} EveryPostHasARow<P, U>(posts: seq<P>, author: P -> Option<string>,
                                                  users: seq<U>, username: U -> Option<string>)
    ensures var rows := LookupUnwind(posts, author, users, username);
            forall i :: 0 <= i < |posts| ==> exists k :: 0 <= k < |rows| && rows[k].post == posts[i]
    decreases |posts|
  {
    if posts != [] {
      var head := Unwind(posts[0], Matches(users, username, author(posts[0])));
      var tail := LookupUnwind(posts[1..], author, users, username);
      var rows := head + tail;
      assert rows == LookupUnwind(posts, author, users, username);
      EveryPostHasARow(posts[1..], author, users, username);
      forall i | 0 <= i < |posts|
        ensures exists k :: 0 <= k < |rows| && rows[k].post == posts[i]
      {
        if i == 0 {
          assert rows[0].post == posts[0];
        } else {
          assert posts[1..][i - 1] == posts[i];
          var k :| 0 <= k < |tail| && tail[k].post == posts[1..][i - 1];
          assert rows[|head| + k] == tail[k];
        }
      }
    }
  }

  /** A post's row with its first matching user, or with none: the join the listing evidently intends. */
  function FirstRow<P, U>(p: P, m: seq<U>): (row: Row<P, U>)
    ensures row.post == p
    ensures row.user.None? <==> m == []
  {
    Row(p, if m == [] then None else Some(m[0]))
  }

  /** The corrected join: exactly one row per post, in the posts' order. */
  function LookupFirst<P, U>(posts: seq<P>, author: P -> Option<string>,
                             users: seq<U>, username: U -> Option<string>): (rows: seq<Row<P, U>>)
    ensures |rows| == |posts|
    ensures forall i :: 0 <= i < |rows| ==> rows[i].post == posts[i]
    ensures forall i :: 0 <= i < |rows| ==> (rows[i].user.Some? <==> Matches(users, username, author(posts[i])) != [])
  {
    if posts == [] then []
    else [FirstRow(posts[0], Matches(users, username, author(posts[0])))] + LookupFirst(posts[1..], author, users, username)
  }

  /** The join as written yields one row per post exactly when no post matches two users. */
  lemma {:induction false} OneRowPerPostIff<P, U>(posts: seq<P>, author: P -> Option<string>,
                                                  users: seq<U>, username: U -> Option<string>)
    ensures |LookupUnwind(posts, author, users, username)| == |posts|
            <==> forall i :: 0 <= i < |posts| ==> |Matches(users, username, author(posts[i]))| <= 1
    decreases |posts|
  {
    if posts != [] {
      OneRowPerPostIff(posts[1..], author, users, username);
      if forall i :: 0 <= i < |posts| ==> |Matches(users, username, author(posts[i]))| <= 1 {
        assert forall i :: 0 <= i < |posts[1..]| ==> |Matches(users, username, author(posts[1..][i]))| <= 1 by {
          forall i | 0 <= i < |posts[1..]|
            ensures |Matches(users, username, author(posts[1..][i]))| <= 1
          {
            assert posts[1..][i] == posts[i + 1];
          }
        }
      } else {
        var i :| 0 <= i < |posts| && |Matches(users, username, author(posts[i]))| > 1;
        if i > 0 {
          assert posts[1..][i - 1] == posts[i];
        }
      }
    }
  }

  /** When no post matches two users, the corrected join and the written one agree. */
  lemma {:induction false} LookupFirstAgrees<P, U>(posts: seq<P>, author: P -> Option<string>,
                                                   users: seq<U>, username: U -> Option<string>)
    requires forall i :: 0 <= i < |posts| ==> |Matches(users, username, author(posts[i]))| <= 1
    ensures LookupFirst(posts, author, users, username) == LookupUnwind(posts, author, users, username)
    decreases |posts|
  {
    if posts != [] {
      var m := Matches(users, username, author(posts[0]));
      assert Unwind(posts[0], m) == [FirstRow(posts[0], m)];
      assert forall i :: 0 <= i < |posts[1..]| ==> |Matches(users, username, author(posts[1..][i]))| <= 1 by {
        forall i | 0 <= i < |posts[1..]|
          ensures |Matches(users, username, author(posts[1..][i]))| <= 1
        {
          assert posts[1..][i] == posts[i + 1];
        }
      }
      LookupFirstAgrees(posts[1..], author, users, username);
    }
  }

  /**
   Posts are stored without an `author` and users without a `username`, so the
   written join pairs each such post with every such user: one post and two
   users list the post twice on page 1.
   */
  lemma AuthorlessPostListedTwice()
    ensures var rows := LookupUnwind(["p"], (p: string) => None, ["u1", "u2"], (u: string) => None);
            rows == [Row("p", Some("u1")), Row("p", Some("u2"))]
            && ListPage(rows, 1, 1).posts == rows
  {
    var users := ["u1", "u2"];
    assert Matches(users, (u: string) => None, None) == users;
  }

  /** With the corrected join, pages 1 to totalPages list every post exactly once, in order. */
  lemma CorrectedPagesShowEachPost<P, U>(posts: seq<P>, author: P -> Option<string>,
                                         users: seq<U>, username: U -> Option<string>)
    ensures var rows := LookupFirst(posts, author, users, username);
            var shown := Pages(rows, |posts|, TotalPages(|posts|));
            |shown| == |posts| && forall i :: 0 <= i < |posts| ==> shown[i].post == posts[i]
  {
    PagesCoverListing(LookupFirst(posts, author, users, username), |posts|);
  }

  /** A page number written in decimal is the page shown. */
  lemma PageNumberReadsDecimal(n: nat)
    requires n >= 1
    ensures PageNumber(Some(Decimal(n))) == n
  {
    assert Decimal(n) + [] == Decimal(n);
    ParseIntDecimal(n, []);
    assert ParseInt(Some(Decimal(n)).GetOr("undefined")) == Some(n);
  }

  /** "0", text without digits, and an absent parameter all show page 1. */
  lemma PageNumberFallsBackToOne()
    ensures PageNumber(Some("0")) == 1
    ensures PageNumber(Some("abc")) == 1
    ensures PageNumber(None) == 1
  {
    ParseIntDecimal(0, []);
    assert Decimal(0) + [] == "0";
    NoDigitsIsNaN("abc");
    NoDigitsIsNaN("undefined");
  }
}

=== FILE: routes.dfy ===
/**
 The protected routes as middleware chains: `verifyToken`, then the route's role
 gate if it has one, then the handler. A request the chain refuses reaches no
 handler and changes nothing.
 */
module Routes {
  import opened Js
  import opened Http
  import opened Auth
  import Votes
  import Slots
  import Balance
  import Paging
  import Email
  import Seqs

  /** `POST /forum/posts/:postId/vote`, behind `verifyToken` only. */
  function VoteRoute(store: Votes.PostStore, header: Option<string>, verify: string -> Option<Claims>,
                     postId: string, email: Value, vote: Value): (r: Votes.VoteReply)
    ensures VerifyToken(header, verify).Deny? ==> r.status == Unauthorized && r.store == store
    ensures VerifyToken(header, verify).Allow? ==> r == Votes.CastVote(store, postId, email, vote)
  {
    match Authorize(header, verify, None)
    case Deny(status, message) => Votes.VoteReply(status, message, store)
    case Allow(_) => Votes.CastVote(store, postId, email, vote)
  }

  /** `POST /trainer/slots`, behind `verifyToken` and `verifyTrainer`; the trainer is the token's email. */
  function CreateSlotRoute(store: Slots.TrainerStore, header: Option<string>, verify: string -> Option<Claims>,
                           days: Value, slotName: Value, slotTime: Value, freshId: string): (r: Slots.SlotReply)
    ensures Authorize(header, verify, Some(Trainer)).Deny? ==> r.status in {Unauthorized, Forbidden} && r.store == store
    ensures Authorize(header, verify, Some(Trainer)).Allow? ==>
      r == Slots.CreateSlot(store, Authorize(header, verify, Some(Trainer)).user.email, days, slotName, slotTime, freshId)
  {
    match Authorize(header, verify, Some(Trainer))
    case Deny(status, message) => Slots.SlotReply(status, message, store)
    case Allow(user) => Slots.CreateSlot(store, user.email, days, slotName, slotTime, freshId)
  }

  /** `DELETE /slots/:slotId`, behind `verifyToken` and `verifyTrainer`. */
  function DeleteSlotRoute(store: Slots.TrainerStore, header: Option<string>, verify: string -> Option<Claims>,
                           slotId: string): (r: Slots.SlotReply)
    ensures Authorize(header, verify, Some(Trainer)).Deny? ==> r.status in {Unauthorized, Forbidden} && r.store == store
    ensures Authorize(header, verify, Some(Trainer)).Allow? ==>
      r == Slots.DeleteSlot(store, Authorize(header, verify, Some(Trainer)).user.email, slotId)
  {
    match Authorize(header, verify, Some(Trainer))
    case Deny(status, message) => Slots.SlotReply(status, message, store)
    case Allow(user) => Slots.DeleteSlot(store, user.email, slotId)
  }

  /**
   `GET /forum/posts`, behind `verifyToken` only. `posts` is the collection in
   listing order (newest first); each post is joined with every matching user,
   as the `$lookup` and `$unwind` stages do, while the page count counts posts.
   */
  function ListPostsRoute<P, U>(posts: seq<P>, author: P -> Option<string>, users: seq<U>, username: U -> Option<string>,
                                header: Option<string>, verify: string -> Option<Claims>,
                                query: Option<string>): (r: Paging.Listing<Paging.Row<P, U>>)
    ensures VerifyToken(header, verify).Deny? ==> r == Paging.Listing(Unauthorized, [], 0)
    ensures VerifyToken(header, verify).Allow? ==>
      r == Paging.ListPage(Paging.LookupUnwind(posts, author, users, username), |posts|, Paging.PageNumber(query))
  {
    match Authorize(header, verify, None)
    case Deny(status, _) => Paging.Listing(status, [], 0)
    case Allow(_) => Paging.ListPage(Paging.LookupUnwind(posts, author, users, username), |posts|, Paging.PageNumber(query))
  }

  /** When no post matches two users, the listing route pages exactly the one-row-per-post join. */
  lemma ListPostsOneRowPerPost<P, U>(posts: seq<P>, author: P -> Option<string>, users: seq<U>,
                                     username: U -> Option<string>, header: Option<string>,
                                     verify: string -> Option<Claims>, query: Option<string>)
    requires forall i :: 0 <= i < |posts| ==> |Paging.Matches(users, username, author(posts[i]))| <= 1
    ensures VerifyToken(header, verify).Allow? ==>
      ListPostsRoute(posts, author, users, username, header, verify, query)
        == Paging.ListPage(Paging.LookupFirst(posts, author, users, username), |posts|, Paging.PageNumber(query))
  {
    Paging.LookupFirstAgrees(posts, author, users, username);
  }

  /** `GET /admin/balance`, behind `verifyToken` and `verifyAdmin`. */
  method BalanceRoute(header: Option<string>, verify: string -> Option<Claims>, payments: seq<Balance.Payment>,
                      bookings: seq<Balance.Booking>, subscribers: nat) returns (status: Status, report: Option<Balance.Report>)
    ensures status == Ok <==> Authorize(header, verify, Some(Admin)).Allow?
    ensures status != Ok ==> status == Authorize(header, verify, Some(Admin)).status && report.None?
    ensures status == Ok ==> report.Some? && report.value.totalBalance == Balance.Total(payments)
                             && report.value.totalPaidMembers == |Balance.PaidMembers(bookings)|
    ensures status == Ok ==> report.value.totalSubscribers == subscribers
                             && |report.value.recentTransactions| == Min(Balance.RecentLimit, |bookings|)
                             && forall i :: 0 <= i < |report.value.recentTransactions| ==>
                                  report.value.recentTransactions[i] == Balance.ToTransaction(bookings[i])
  {
    match Authorize(header, verify, Some(Admin)) {
      case Deny(s, _) =>
        status, report := s, None;
      case Allow(_) =>
        var r := Balance.BalanceReport(payments, bookings, subscribers);
        status, report := Ok, Some(r);
    }
  }

  /** An administrator's token does not open the trainer routes: there is no role hierarchy. */
  lemma AdminCannotCreateSlots(store: Slots.TrainerStore, token: string, verify: string -> Option<Claims>,
                               email: string, days: Value, slotName: Value, slotTime: Value, freshId: string)
    requires ' ' !in token
    requires verify(token) == Some(Claims(email, Some("admin")))
    ensures var r := CreateSlotRoute(store, Some(BearerPrefix + token), verify, days, slotName, slotTime, freshId);
            r.status == Forbidden && r.store == store
  {
    VerifiedTokenMeetsGate(token, verify, Claims(email, Some("admin")), Trainer);
    assert "admin" != "Trainer" by { assert "admin"[0] != "Trainer"[0]; }
  }

  /**
   The recorded voter is the email in the request body, not the token's: any
   authenticated caller can cast, change or repeat a vote under another valid address.
   */
  lemma VoteUnderAnyEmail(store: Votes.PostStore, token: string, verify: string -> Option<Claims>, caller: Claims,
                          postId: string, voter: string)
    requires ' ' !in token
    requires verify(token) == Some(caller)
    requires Votes.IsValidObjectId(postId) && Votes.CanonicalId(postId) in store
    requires Email.IsValidEmail(voter) && voter != caller.email
    ensures var r := VoteRoute(store, Some(BearerPrefix + token), verify, postId, Str(voter), Number(1.0));
            r.status == Ok && Votes.FindVoter(r.store[Votes.CanonicalId(postId)].voters, voter) == Some(Votes.Voter(voter, 1))
  {
    BearerRoundTrip(token, []);
    assert BearerPrefix + token + [] == BearerPrefix + token;
    assert VoteRoute(store, Some(BearerPrefix + token), verify, postId, Str(voter), Number(1.0))
        == Votes.CastVote(store, postId, Str(voter), Number(1.0));
    VoteRecordsBodyEmail(store, postId, voter);
  }

  /** A valid vote on an existing post leaves exactly the body's email with that vote as its record. */
  lemma VoteRecordsBodyEmail(store: Votes.PostStore, postId: string, voter: string)
    requires Votes.IsValidObjectId(postId) && Votes.CanonicalId(postId) in store
    requires Email.IsValidEmail(voter)
    ensures var r := Votes.CastVote(store, postId, Str(voter), Number(1.0));
            r.status == Ok && Votes.FindVoter(r.store[Votes.CanonicalId(postId)].voters, voter) == Some(Votes.Voter(voter, 1))
  {
    var id := Votes.CanonicalId(postId);
    Votes.VoteKeepsOrder(store[id], voter, 1);
    var kept := Seqs.Filter(store[id].voters, Votes.Other(voter));
    assert forall i :: 0 <= i < |kept| ==> kept[i].email != voter;
    Votes.FindAppended(kept, Votes.Voter(voter, 1));
  }
}

=== FILE: seqs.dfy ===
/**
 Order-preserving filtering of a sequence: the shape of a store `$pull`, which
 removes every array element matching a condition and keeps the others in place.
 */
module Seqs {

  /** The elements of `s` that satisfy `keep`, in their original order. */
  function Filter<T>(s: seq<T>, keep: T -> bool): (r: seq<T>)
    ensures |r| <= |s|
    ensures forall i :: 0 <= i < |r| ==> r[i] in s && keep(r[i])
    ensures forall i :: 0 <= i < |s| && keep(s[i]) ==> s[i] in r
  {
    if |s| == 0 then []
    else (if keep(s[0]) then [s[0]] else []) + Filter(s[1..], keep)
  }

  /** Filtering distributes over concatenation: together with the one-element case this fixes the order of the result. */
  lemma {:induction false} FilterConcat<T>(a: seq<T>, b: seq<T>, keep: T -> bool)
    ensures Filter(a + b, keep) == Filter(a, keep) + Filter(b, keep)
    decreases |a|
  {
    if |a| > 0 {
      assert (a + b)[0] == a[0];
      assert (a + b)[1..] == a[1..] + b;
      FilterConcat(a[1..], b, keep);
    } else {
      assert a + b == b;
    }
  }

  /** A sequence whose elements all pass is left as it is. */
  lemma {:induction false} FilterKeepsAll<T>(s: seq<T>, keep: T -> bool)
    requires forall i :: 0 <= i < |s| ==> keep(s[i])
    ensures Filter(s, keep) == s
    decreases |s|
  {
    if |s| > 0 {
      FilterKeepsAll(s[1..], keep);
      assert [s[0]] + s[1..] == s;
    }
  }

  /** Filtering removes something exactly when some element fails. */
  lemma {:induction false} FilterShrinks<T>(s: seq<T>, keep: T -> bool)
    ensures |Filter(s, keep)| < |s| <==> exists i :: 0 <= i < |s| && !keep(s[i])
    decreases |s|
  {
    if |s| > 0 {
      FilterShrinks(s[1..], keep);
      if !keep(s[0]) {
      } else if exists i :: 0 <= i < |s| && !keep(s[i]) {
        var i :| 0 <= i < |s| && !keep(s[i]);
        assert !keep(s[1..][i - 1]);
      } else {
        assert forall i :: 0 <= i < |s[1..]| ==> keep(s[1..][i]) by {
          forall i | 0 <= i < |s[1..]|
            ensures keep(s[1..][i])
          {
            assert s[1..][i] == s[i + 1];
          }
        }
      }
    }
  }
}

=== FILE: slots.dfy ===
/**
 A trainer's list of bookable slots: `POST /trainer/slots` appends one with a
 fresh identifier, `DELETE /slots/:slotId` pulls every slot with a given
 identifier. The trainer is the authenticated user, found by email.
 */
module Slots {
  import opened Js
  import opened Http
  import opened Seqs

  /** A slot; the name, time and days are stored as the request gave them. */
  datatype Slot = Slot(slotId: string, slotName: Value, slotTime: Value, isBooked: bool, daysAvailable: Value)

  /** A trainer record; profile fields other than the email play no part here. */
  datatype Trainer = Trainer(email: string, availableSlots: seq<Slot>)

  /** The trainers collection, keyed by email. */
  type TrainerStore = map<string, Trainer>

  datatype SlotReply = SlotReply(status: Status, message: string, store: TrainerStore)

  /** The trainer exists and has at least one slot with this identifier (`"availableSlots.slotId": slotId`). */
  predicate HasSlot(store: TrainerStore, trainerEmail: string, slotId: string) {
    trainerEmail in store
    && exists i :: 0 <= i < |store[trainerEmail].availableSlots|
                   && store[trainerEmail].availableSlots[i].slotId == slotId
  }

  /**
   `POST /trainer/slots`: 400 unless days, name and time are all truthy, 404
   when the trainer has no record, otherwise one unbooked slot with the fresh
   identifier is appended to that trainer's list and nothing else changes.
   */
  function CreateSlot(store: TrainerStore, trainerEmail: string, days: Value, slotName: Value, slotTime: Value,
                      freshId: string): (r: SlotReply)
    ensures r.status in {Created, BadRequest, NotFound}
    ensures r.status == BadRequest <==> !(Truthy(days) && Truthy(slotName) && Truthy(slotTime))
    ensures r.status == NotFound <==> Truthy(days) && Truthy(slotName) && Truthy(slotTime) && trainerEmail !in store
    ensures r.status != Created ==> r.store == store
    ensures r.status == Created ==>
      && trainerEmail in store
      && r.store.Keys == store.Keys
      && (forall e :: e in store && e != trainerEmail ==> r.store[e] == store[e])
      && r.store[trainerEmail].email == store[trainerEmail].email
      && var before := store[trainerEmail].availableSlots;
         var after := r.store[trainerEmail].availableSlots;
         && |after| == |before| + 1
         && after[..|before|] == before
         && after[|before|] == Slot(freshId, slotName, slotTime, false, days)
  {
    if !Truthy(days) || !Truthy(slotName) || !Truthy(slotTime) then
      SlotReply(BadRequest, "All fields are required", store)
    else if trainerEmail !in store then
      SlotReply(NotFound, "Trainer not found", store)
    else
      var trainer := store[trainerEmail];
      var slot := Slot(freshId, slotName, slotTime, false, days);
      SlotReply(Created, "Slot created successfully",
                store[trainerEmail := trainer.(availableSlots := trainer.availableSlots + [slot])])
  }

  /** The `$pull` condition `{ slotId }`, negated: the slots that stay. */
  function OtherSlot(slotId: string): Slot -> bool {
    (s: Slot) => s.slotId != slotId
  }

  /**
   `DELETE /slots/:slotId`: 400 for an empty identifier, 404 when the trainer
   has no slot with it, otherwise every slot with that identifier is removed,
   the others stay, and no other trainer changes.
   */
  function DeleteSlot(store: TrainerStore, trainerEmail: string, slotId: string): (r: SlotReply)
    ensures r.status in {Ok, BadRequest, NotFound}
    ensures r.status == BadRequest <==> slotId == ""
    ensures r.status == NotFound <==> slotId != "" && !HasSlot(store, trainerEmail, slotId)
    ensures r.status != Ok ==> r.store == store
    ensures r.status == Ok ==>
      && trainerEmail in store
      && r.store.Keys == store.Keys
      && (forall e :: e in store && e != trainerEmail ==> r.store[e] == store[e])
      && r.store[trainerEmail].email == store[trainerEmail].email
      && var before := store[trainerEmail].availableSlots;
         var after := r.store[trainerEmail].availableSlots;
         && |after| < |before|
         && (forall i :: 0 <= i < |after| ==> after[i].slotId != slotId && after[i] in before)
         && (forall i :: 0 <= i < |before| && before[i].slotId != slotId ==> before[i] in after)
  {
    if slotId == "" then SlotReply(BadRequest, "Invalid slotId", store)
    else if !HasSlot(store, trainerEmail, slotId) then SlotReply(NotFound, "Trainer or Slot not found", store)
    else
      var trainer := store[trainerEmail];
      FilterShrinks(trainer.availableSlots, OtherSlot(slotId));
      SlotReply(Ok, "Slot deleted successfully",
                store[trainerEmail := trainer.(availableSlots := Filter(trainer.availableSlots, OtherSlot(slotId)))])
  }

  /** The slots that remain after a deletion are the original ones in their original order, minus the removed ones. */
  lemma DeleteKeepsOrder(store: TrainerStore, trainerEmail: string, slotId: string, prefix: seq<Slot>, suffix: seq<Slot>)
    requires DeleteSlot(store, trainerEmail, slotId).status == Ok
    requires store[trainerEmail].availableSlots == prefix + suffix
    ensures DeleteSlot(store, trainerEmail, slotId).store[trainerEmail].availableSlots
         == Filter(prefix, OtherSlot(slotId)) + Filter(suffix, OtherSlot(slotId))
  {
    FilterConcat(prefix, suffix, OtherSlot(slotId));
  }

  /** Deleting the slot just created, under an identifier not yet used, gives back the collection as it was. */
  lemma CreateThenDeleteRestores(store: TrainerStore, trainerEmail: string, days: Value, slotName: Value,
                                 slotTime: Value, freshId: string)
    requires trainerEmail in store && Truthy(days) && Truthy(slotName) && Truthy(slotTime)
    requires freshId != ""
    requires forall i :: 0 <= i < |store[trainerEmail].availableSlots| ==>
               store[trainerEmail].availableSlots[i].slotId != freshId
    ensures var created := CreateSlot(store, trainerEmail, days, slotName, slotTime, freshId);
            DeleteSlot(created.store, trainerEmail, freshId) == SlotReply(Ok, "Slot deleted successfully", store)
  {
    var before := store[trainerEmail].availableSlots;
    var slot := Slot(freshId, slotName, slotTime, false, days);
    var created := store[trainerEmail := store[trainerEmail].(availableSlots := before + [slot])];
    assert CreateSlot(store, trainerEmail, days, slotName, slotTime, freshId).store == created;
    DeleteAppendedRestores(store, trainerEmail, slot);
  }

  /** Deleting the identifier of a slot appended to a trainer's list restores the collection. */
  lemma DeleteAppendedRestores(store: TrainerStore, trainerEmail: string, slot: Slot)
    requires trainerEmail in store && slot.slotId != ""
    requires forall i :: 0 <= i < |store[trainerEmail].availableSlots| ==>
               store[trainerEmail].availableSlots[i].slotId != slot.slotId
    ensures var before := store[trainerEmail].availableSlots;
            var created := store[trainerEmail := store[trainerEmail].(availableSlots := before + [slot])];
            DeleteSlot(created, trainerEmail, slot.slotId) == SlotReply(Ok, "Slot deleted successfully", store)
  {
    var before := store[trainerEmail].availableSlots;
    var created := store[trainerEmail := store[trainerEmail].(availableSlots := before + [slot])];
    assert HasSlot(created, trainerEmail, slot.slotId) by {
      assert created[trainerEmail].availableSlots[|before|].slotId == slot.slotId;
    }
    DropAppended(before, slot);
    assert created[trainerEmail := created[trainerEmail].(availableSlots := before)] == store;
  }

  /** Pulling the identifier of a slot appended after slots with other identifiers removes just that slot. */
  lemma DropAppended(before: seq<Slot>, slot: Slot)
    requires forall i :: 0 <= i < |before| ==> before[i].slotId != slot.slotId
    ensures Filter(before + [slot], OtherSlot(slot.slotId)) == before
  {
    FilterConcat(before, [slot], OtherSlot(slot.slotId));
    FilterKeepsAll(before, OtherSlot(slot.slotId));
    assert Filter([slot], OtherSlot(slot.slotId)) == [];
  }

  /** A second deletion of the same identifier finds nothing and changes nothing. */
  lemma DeleteTwiceIsNotFound(store: TrainerStore, trainerEmail: string, slotId: string)
    requires DeleteSlot(store, trainerEmail, slotId).status == Ok
    ensures var once := DeleteSlot(store, trainerEmail, slotId).store;
            DeleteSlot(once, trainerEmail, slotId) == SlotReply(NotFound, "Trainer or Slot not found", once)
  {
  }

  /** Repeated creation with the same fields adds one slot per request: requests are not deduplicated. */
  lemma CreateTwiceAddsTwo(store: TrainerStore, trainerEmail: string, days: Value, slotName: Value,
                           slotTime: Value, id1: string, id2: string)
    requires trainerEmail in store && Truthy(days) && Truthy(slotName) && Truthy(slotTime)
    ensures var once := CreateSlot(store, trainerEmail, days, slotName, slotTime, id1).store;
            var twice := CreateSlot(once, trainerEmail, days, slotName, slotTime, id2).store;
            |twice[trainerEmail].availableSlots| == |store[trainerEmail].availableSlots| + 2
  {
  }
}

=== FILE: votes.dfy ===
/**
 The forum vote ledger. A post keeps a list of `{email, vote}` voter records and
 an `upvotes` counter that is really the net score. Casting a vote validates the
 request, pulls any earlier record of the voter (taking its value back off the
 counter), then pushes the new record (adding its value). The two store updates
 are modelled as one sequential step.
 */
module Votes {
  import opened Js
  import opened Http
  import opened Seqs
  import Email

  datatype Voter = Voter(email: string, vote: int)

  /** A stored forum post; the author reference and creation time play no part in voting. */
  datatype Post = Post(title: Value, content: Value, upvotes: int, downvotes: int, voters: seq<Voter>)

  /** The posts collection, keyed by the lower-case hexadecimal spelling of each post's ObjectId. */
  type PostStore = map<string, Post>

  // ----- Post identifiers -----

  /** `ObjectId.isValid` on a string: 24 hexadecimal digits. */
  predicate IsValidObjectId(s: string)
    ensures IsValidObjectId(s) <==> |s| == 24 && forall i :: 0 <= i < |s| ==>
      ('0' <= s[i] <= '9' || 'a' <= s[i] <= 'f' || 'A' <= s[i] <= 'F')
  {
    |s| == 24 && AllDigits(s, 16)
  }

  function LowerHex(c: char): char {
    if 'A' <= c <= 'F' then ((c as int) + 32) as char else c
  }

  /** The store key `new ObjectId(s)` denotes: the same digits, spelt in lower case. */
  function CanonicalId(s: string): (r: string)
    requires IsValidObjectId(s)
    ensures IsValidObjectId(r)
    ensures forall k :: 0 <= k < |r| ==> !('A' <= r[k] <= 'F')
    ensures forall k :: 0 <= k < |r| ==> DigitValue(r[k], 16) == DigitValue(s[k], 16)
  {
    seq(|s|, k requires 0 <= k < |s| => LowerHex(s[k]))
  }

  /** Two spellings of an id reach the same post exactly when they denote the same digits. */
  lemma SameObjectId(s: string, t: string)
    requires IsValidObjectId(s) && IsValidObjectId(t)
    ensures CanonicalId(s) == CanonicalId(t)
        <==> forall k :: 0 <= k < 24 ==> DigitValue(s[k], 16) == DigitValue(t[k], 16)
  {
    var cs, ct := CanonicalId(s), CanonicalId(t);
    if forall k :: 0 <= k < 24 ==> DigitValue(s[k], 16) == DigitValue(t[k], 16) {
      forall k | 0 <= k < 24 ensures cs[k] == ct[k] {
        assert DigitValue(cs[k], 16) == DigitValue(ct[k], 16);
      }
    }
  }

  // ----- The voter list -----

  /** `post.voters.find(voter => voter.email === email)`: the first record of that voter. */
  function FindVoter(vs: seq<Voter>, email: string): (r: Option<Voter>)
    ensures r.None? <==> forall i :: 0 <= i < |vs| ==> vs[i].email != email
    ensures r.Some? ==> exists i :: 0 <= i < |vs| && vs[i] == r.value && r.value.email == email
                                   && forall k :: 0 <= k < i ==> vs[k].email != email
  {
    if |vs| == 0 then None
    else if vs[0].email == email then Some(vs[0])
    else
      var r := FindVoter(vs[1..], email);
      assert r.Some? ==> exists i :: 0 <= i < |vs| && vs[i] == r.value && r.value.email == email
                                   && forall k :: 0 <= k < i ==> vs[k].email != email by {
        if r.Some? {
          var i :| 0 <= i < |vs[1..]| && vs[1..][i] == r.value && r.value.email == email
                   && forall k :: 0 <= k < i ==> vs[1..][k].email != email;
          assert vs[i + 1] == r.value;
          assert forall k :: 0 <= k < i + 1 ==> vs[k].email != email by {
            forall k | 0 <= k < i + 1 ensures vs[k].email != email {
              if k > 0 { assert vs[k] == vs[1..][k - 1]; }
            }
          }
        }
      }
      r
  }

  /** The value of the voter's earlier vote, 0 when there is none. */
  function PreviousVote(vs: seq<Voter>, email: string): int {
    match FindVoter(vs, email)
    case Some(existing) => existing.vote
    case None => 0
  }

  /** The `$pull` condition `{ email }`, negated: the records that stay. */
  function Other(email: string): Voter -> bool {
    (v: Voter) => v.email != email
  }

  /** At most one record per voter. */
  predicate Unique(vs: seq<Voter>) {
    forall i, j :: 0 <= i < j < |vs| ==> vs[i].email != vs[j].email
  }

  /** The signed sum of the recorded votes. */
  function Score(vs: seq<Voter>): int {
    if |vs| == 0 then 0 else vs[0].vote + Score(vs[1..])
  }

  /** The ledger invariant: one record per voter, and the counter is the net score of the records. */
  predicate Consistent(p: Post) {
    Unique(p.voters) && p.upvotes == Score(p.voters)
  }

  // ----- Casting a vote -----

  /** The first update: when the voter has a record, pull every record of theirs and take the first one's value back. */
  function Pull(p: Post, email: string): (r: Post)
    ensures r.title == p.title && r.content == p.content && r.downvotes == p.downvotes
    ensures forall i :: 0 <= i < |r.voters| ==> r.voters[i].email != email
    ensures r.upvotes == p.upvotes - PreviousVote(p.voters, email)
    ensures Unique(p.voters) ==> Unique(r.voters) && r.upvotes - Score(r.voters) == p.upvotes - Score(p.voters)
  {
    match FindVoter(p.voters, email)
    case None => p
    case Some(existing) =>
      var kept := Filter(p.voters, Other(email));
      assert Unique(p.voters) ==> Unique(kept) && Score(kept) == Score(p.voters) - existing.vote by {
        if Unique(p.voters) {
          ScoreWithout(p.voters, email);
          FilterKeepsUnique(p.voters, Other(email));
        }
      }
      p.(voters := kept, upvotes := p.upvotes - existing.vote)
  }

  /** The second update: push the new record and add its value. */
  function Push(p: Post, email: string, vote: int): (r: Post)
    ensures r.title == p.title && r.content == p.content && r.downvotes == p.downvotes
    ensures |r.voters| == |p.voters| + 1 && r.voters[..|p.voters|] == p.voters && r.voters[|p.voters|] == Voter(email, vote)
    ensures r.upvotes - Score(r.voters) == p.upvotes - Score(p.voters)
    ensures Unique(p.voters) && FindVoter(p.voters, email).None? ==> Unique(r.voters)
  {
    ScoreConcat(p.voters, [Voter(email, vote)]);
    p.(voters := p.voters + [Voter(email, vote)], upvotes := p.upvotes + vote)
  }

  /**
   A validated vote on a found post. Afterwards the voter has exactly one
   record, the last, holding the new vote; every other record is kept; the
   counter moves by the new vote minus the earlier one.
   */
  function ApplyVote(p: Post, email: string, vote: int): (q: Post)
    ensures q.title == p.title && q.content == p.content && q.downvotes == p.downvotes
    ensures q.upvotes == p.upvotes - PreviousVote(p.voters, email) + vote
    ensures |q.voters| > 0 && q.voters[|q.voters| - 1] == Voter(email, vote)
    ensures forall i :: 0 <= i < |q.voters| - 1 ==> q.voters[i].email != email && q.voters[i] in p.voters
    ensures forall i :: 0 <= i < |p.voters| && p.voters[i].email != email ==> p.voters[i] in q.voters
  {
    Push(Pull(p, email), email, vote)
  }

  /** What a vote request is answered with, and the posts collection afterwards. */
  datatype VoteReply = VoteReply(status: Status, message: string, store: PostStore)

  /** `typeof vote === "number"` and the value is exactly 1 or -1. */
  function VoteValue(v: Value): (r: Option<int>)
    ensures r.Some? <==> v.Number? && (v.n == 1.0 || v.n == -1.0)
    ensures r.Some? ==> (r.value == 1 <==> v.n == 1.0) && (r.value == 1 || r.value == -1)
  {
    if v == Number(1.0) then Some(1)
    else if v == Number(-1.0) then Some(-1)
    else None
  }

  /** The email field passes `isValidEmail`. */
  predicate ValidVoterEmail(email: Value) {
    email.Str? && Email.IsValidEmail(email.s)
  }

  /**
   `POST /forum/posts/:postId/vote`: 400 for a malformed post id, email or vote
   (checked in that order), 404 for a post that does not exist, otherwise the
   vote is applied to that post alone. A refused request changes nothing.
   */
  function CastVote(store: PostStore, postId: string, email: Value, vote: Value): (r: VoteReply)
    ensures r.status in {Ok, BadRequest, NotFound}
    ensures r.status == BadRequest
        <==> !IsValidObjectId(postId) || !ValidVoterEmail(email) || VoteValue(vote).None?
    ensures r.status == NotFound
        <==> IsValidObjectId(postId) && ValidVoterEmail(email) && VoteValue(vote).Some?
             && CanonicalId(postId) !in store
    ensures r.status != Ok ==> r.store == store
    ensures r.status == Ok ==>
      var id := CanonicalId(postId);
      && id in store
      && r.store.Keys == store.Keys
      && (forall k :: k in store && k != id ==> r.store[k] == store[k])
      && r.store[id] == ApplyVote(store[id], email.s, VoteValue(vote).value)
  {
    if !IsValidObjectId(postId) then VoteReply(BadRequest, "Invalid post ID.", store)
    else if !ValidVoterEmail(email) then VoteReply(BadRequest, "Invalid email format.", store)
    else if VoteValue(vote).None? then VoteReply(BadRequest, "Invalid vote value. Must be 1 or -1.", store)
    else
      var id := CanonicalId(postId);
      if id !in store then VoteReply(NotFound, "Post not found.", store)
      else VoteReply(Ok, "Vote updated successfully.", store[id := ApplyVote(store[id], email.s, VoteValue(vote).value)])
  }

  // ----- Creating a post -----

  /** `POST /forum/posts`: refused (400) unless title and content are truthy; a new post starts with no votes. */
  function CreatePost(title: Value, content: Value): (r: Option<Post>)
    ensures r.Some? <==> Truthy(title) && Truthy(content)
    ensures r.Some? ==> Consistent(r.value) && r.value.voters == [] && r.value.downvotes == 0
                        && r.value.title == title && r.value.content == content
  {
    if !Truthy(title) || !Truthy(content) then None
    else Some(Post(title, content, 0, 0, []))
  }

  // ----- Properties -----

  lemma {:induction false} ScoreConcat(a: seq<Voter>, b: seq<Voter>)
    ensures Score(a + b) == Score(a) + Score(b)
    decreases |a|
  {
    if |a| > 0 {
      assert (a + b)[1..] == a[1..] + b;
      ScoreConcat(a[1..], b);
    } else {
      assert a + b == b;
    }
  }

  /** On a list with one record per voter, pulling a voter's records takes exactly their earlier vote off the score. */
  lemma {:induction false} ScoreWithout(vs: seq<Voter>, email: string)
    requires Unique(vs)
    ensures Score(Filter(vs, Other(email))) == Score(vs) - PreviousVote(vs, email)
    decreases |vs|
  {
    if |vs| > 0 {
      var rest := vs[1..];
      assert Unique(rest) by {
        forall i, j | 0 <= i < j < |rest| ensures rest[i].email != rest[j].email {
          assert rest[i] == vs[i + 1] && rest[j] == vs[j + 1];
        }
      }
      if vs[0].email == email {
        assert forall i :: 0 <= i < |rest| ==> Other(email)(rest[i]) by {
          forall i | 0 <= i < |rest| ensures Other(email)(rest[i]) {
            assert rest[i] == vs[i + 1];
          }
        }
        FilterKeepsAll(rest, Other(email));
        assert Filter(vs, Other(email)) == Filter(rest, Other(email));
        assert PreviousVote(vs, email) == vs[0].vote;
      } else {
        ScoreWithout(rest, email);
        assert PreviousVote(vs, email) == PreviousVote(rest, email);
        var kept := Filter(rest, Other(email));
        assert Filter(vs, Other(email)) == [vs[0]] + kept;
        assert ([vs[0]] + kept)[1..] == kept;
      }
    }
  }

  /** Filtering keeps one record per voter. */
  lemma {:induction false} FilterKeepsUnique(vs: seq<Voter>, keep: Voter -> bool)
    requires Unique(vs)
    ensures Unique(Filter(vs, keep))
    decreases |vs|
  {
    if |vs| > 0 {
      var rest := vs[1..];
      assert Unique(rest) by {
        forall i, j | 0 <= i < j < |rest| ensures rest[i].email != rest[j].email {
          assert rest[i] == vs[i + 1] && rest[j] == vs[j + 1];
        }
      }
      FilterKeepsUnique(rest, keep);
      var fr := Filter(rest, keep);
      if keep(vs[0]) {
        assert forall k :: 0 <= k < |fr| ==> fr[k].email != vs[0].email by {
          forall k | 0 <= k < |fr| ensures fr[k].email != vs[0].email {
            var m :| 0 <= m < |rest| && rest[m] == fr[k];
            assert vs[m + 1] == rest[m];
          }
        }
        UniqueCons(vs[0], fr);
      }
    }
  }

  /** A record with a new email in front of a list with one record per voter. */
  lemma UniqueCons(x: Voter, vs: seq<Voter>)
    requires Unique(vs)
    requires forall k :: 0 <= k < |vs| ==> vs[k].email != x.email
    ensures Unique([x] + vs)
  {
    var f := [x] + vs;
    forall i, j | 0 <= i < j < |f| ensures f[i].email != f[j].email {
      assert f[j] == vs[j - 1];
      if i > 0 {
        assert f[i] == vs[i - 1];
      }
    }
  }

  /** A vote keeps the ledger invariant. */
  lemma VotePreservesConsistency(p: Post, email: string, vote: int)
    requires Consistent(p)
    ensures Consistent(ApplyVote(p, email, vote))
  {
    var q := ApplyVote(p, email, vote);
    var kept := Filter(p.voters, Other(email));
    ScoreWithout(p.voters, email);
    FilterKeepsUnique(p.voters, Other(email));
    if FindVoter(p.voters, email).None? {
      FilterKeepsAll(p.voters, Other(email));
    }
    assert q.voters == kept + [Voter(email, vote)];
    ScoreConcat(kept, [Voter(email, vote)]);
    assert Score([Voter(email, vote)]) == vote;
    forall i, j | 0 <= i < j < |q.voters| ensures q.voters[i].email != q.voters[j].email {
      if j < |q.voters| - 1 {
        assert q.voters[i] == kept[i] && q.voters[j] == kept[j];
      }
    }
  }

  /** The voter's records survive in their original relative order: the records that remain are exactly the filtered list. */
  lemma VoteKeepsOrder(p: Post, email: string, vote: int)
    ensures ApplyVote(p, email, vote).voters == Filter(p.voters, Other(email)) + [Voter(email, vote)]
  {
    if FindVoter(p.voters, email).None? {
      FilterKeepsAll(p.voters, Other(email));
    }
  }

  /** A record appended after records of other voters is the one `find` returns. */
  lemma FindAppended(kept: seq<Voter>, x: Voter)
    requires forall i :: 0 <= i < |kept| ==> kept[i].email != x.email
    ensures FindVoter(kept + [x], x.email) == Some(x)
  {
    var vs := kept + [x];
    assert vs[|kept|] == x;
    var r := FindVoter(vs, x.email);
    var i :| 0 <= i < |vs| && vs[i] == r.value && r.value.email == x.email;
    if i < |kept| {
      assert vs[i] == kept[i];
    }
  }

  /** Pulling and re-pushing the last record, when it is its voter's only one, restores the post. */
  lemma RepushLast(q: Post, kept: seq<Voter>, x: Voter)
    requires q.voters == kept + [x]
    requires forall i :: 0 <= i < |kept| ==> kept[i].email != x.email
    ensures Push(Pull(q, x.email), x.email, x.vote) == q
  {
    FindAppended(kept, x);
    assert Filter(q.voters, Other(x.email)) == kept by {
      assert forall i :: 0 <= i < |kept| ==> Other(x.email)(kept[i]);
      FilterKeepsAll(kept, Other(x.email));
      FilterConcat(kept, [x], Other(x.email));
      assert Filter([x], Other(x.email)) == [];
    }
    var pulled := Pull(q, x.email);
    assert pulled.voters == kept && pulled.upvotes == q.upvotes - x.vote;
  }

  /** Casting the same vote twice is the same as casting it once. */
  lemma RevoteIsIdempotent(p: Post, email: string, vote: int)
    ensures ApplyVote(ApplyVote(p, email, vote), email, vote) == ApplyVote(p, email, vote)
  {
    var q := ApplyVote(p, email, vote);
    VoteKeepsOrder(p, email, vote);
    var kept := Filter(p.voters, Other(email));
    assert forall i :: 0 <= i < |kept| ==> kept[i].email != email;
    RepushLast(q, kept, Voter(email, vote));
  }

  /** Re-voting in the same direction leaves the score where it was. */
  lemma SameDirectionKeepsScore(p: Post, email: string, vote: int)
    requires FindVoter(p.voters, email) == Some(Voter(email, vote))
    ensures ApplyVote(p, email, vote).upvotes == p.upvotes
  {
  }

  /** Switching an upvote to a downvote lowers the score by two. */
  lemma SwitchLowersScoreByTwo(p: Post, email: string)
    requires FindVoter(p.voters, email) == Some(Voter(email, 1))
    ensures ApplyVote(p, email, -1).upvotes == p.upvotes - 2
  {
  }

  /** Two different voters, one up and one down, on a fresh post: net score 0 and two records. */
  lemma OpposingVotesCancel(title: Value, content: Value, a: string, b: string)
    requires Truthy(title) && Truthy(content) && a != b
    ensures var p := CreatePost(title, content).value;
            var q := ApplyVote(ApplyVote(p, a, 1), b, -1);
            q.upvotes == 0 && |q.voters| == 2 && Consistent(q)
  {
    var p := CreatePost(title, content).value;
    var p1 := ApplyVote(p, a, 1);
    VoteKeepsOrder(p, a, 1);
    assert p1.voters == [Voter(a, 1)];
    VoteKeepsOrder(p1, b, -1);
    assert Filter(p1.voters, Other(b)) == [Voter(a, 1)];
    VotePreservesConsistency(p, a, 1);
    VotePreservesConsistency(p1, b, -1);
  }

  /** A request with a vote of 0 is refused with 400 and leaves every post as it was. */
  lemma ZeroVoteRefused(store: PostStore, postId: string, email: Value)
    ensures CastVote(store, postId, email, Number(0.0)).status == BadRequest
    ensures CastVote(store, postId, email, Number(0.0)).store == store
  {
  }

  /** Voting keeps the ledger invariant of every post in the collection. */
  lemma CastVotePreservesConsistency(store: PostStore, postId: string, email: Value, vote: Value)
    requires forall k :: k in store ==> Consistent(store[k])
    ensures var r := CastVote(store, postId, email, vote);
            forall k :: k in r.store ==> Consistent(r.store[k])
  {
    var r := CastVote(store, postId, email, vote);
    if r.status == Ok {
      var id := CanonicalId(postId);
      VotePreservesConsistency(store[id], email.s, VoteValue(vote).value);
    }
  }
}
